=== FILE: README.md ===
# Litho: state validation and TextDrawable, modelled in Dafny

This project models two self-contained parts of Litho, the declarative UI
framework for Android.

1. The `@State` / `@OnUpdateState` validator of Litho's annotation processor
   (`StateValidation`). It is a pure function from a spec model to an ordered
   list of validation errors. The spec model holds the state values (name,
   type, `canUpdateLazily`), the props, and the update-state methods with
   their parameters. The validator does three things. It checks same-named
   state values pairwise for consistency, comparing types after boxing. It
   classifies each parameter of each update-state method: `@Param`
   parameters must not share a name with a prop or a state value, and every
   other parameter must be a `StateValue<T>` that matches a declared state
   by name and boxed type. Finally it concatenates the two error lists in a
   fixed order.
2. The discrete state machine of `TextDrawable`, the drawable that mounts
   text, without its drawing. This covers mount and unmount, the highlighted
   selection and its cached path, the touch-dispatch predicates, dispatch of
   touches to clickable and long-clickable spans (including the rule that an
   activated long click suppresses the click), the text-offset listener, and
   the rule that picks the one span near a tap.

Files:

- `wrappers.dfy`: `Option`, used for the Java source's nullable references.
- `java_types.dfy`: JavaPoet's `TypeName` reduced to the shapes the
  validator looks at, plus `Box`.
- `spec_models.dfy`: the spec-model records and the error kinds.
- `state_validation.dfy`: the validator and its properties.
- `android_text.dfy`: motion events, `Rect.contains`, `Color.alpha`, spans,
  and the `Layout`/`Spanned` queries. The queries are uninterpreted
  functions carried by the `Layout` and `Text` values.
- `text_drawable.dfy`: the `DrawableState` record, its transitions and
  their properties.

Modelling conventions:

- Error messages are represented by an `ErrorKind` tag. A tag carries the
  parameter name, type or method name when the message embeds them.
- `SpecMethodModelValidation.validateMethodIsStatic` is not part of this
  model. It is passed in as the function parameter `staticCheck`.
- A motion event's coordinates are kept as the ints that `(int) getX()` and
  `(int) getY()` give. Every use in `TextDrawable` applies that cast.
- `getActionMasked()` (`action & 0xff`) is written as `action % 256`. Dafny's
  remainder is never negative, so the two agree on every 32-bit value.
  `Color.alpha` (`color >>> 24`) is written as `(color mod 2^32) / 2^24`.
- A text is reduced to its length and its span queries. The length is
  `CharSequence.length()`, counted in UTF-16 code units, and every offset
  is an index in those units. No characters are modelled, so no Dafny
  string length stands in for it.
- `TextSpec.textColorStateList` (the text component's default colour list)
  is not part of this model. It is passed to mount as `defaultColors`.
- A `Layout` carries an `id` that stands for the Java object's identity. A
  cached selection path records the `id` of the layout that computed it, so
  a path computed by another layout can be told apart.
- Touch handling requires `Touchable`: the fields a touch dereferences
  (layout, text, span array) are set whenever a touch can reach them. The
  Java code would throw a `NullPointerException` otherwise. `Valid` adds
  three invariants: the selection-path cache, `shouldHandleTouch` agreeing
  with the span array, and "a long-clickable span implies a handler".
  Construction, the corrected mount, unmount, selection and touch handling
  preserve `Valid`. The source's own mount, `MountAsWritten`, and the
  overloads built on it can break its path-cache part (see Findings).

## Model

| member | source | states |
|---|---|---|
| `JavaTypes.Box` | litho-processor/src/main/java/com/facebook/litho/specmodels/model/StateValidation.java:48 | boxing never yields a primitive and leaves every non-primitive type unchanged |
| `JavaTypes.BoxedFormsAgree` | litho-processor/src/main/java/com/facebook/litho/specmodels/model/StateValidation.java:158-159 | a primitive and its wrapper class are equal once boxed |
| `StateValidation.PairErrors` | litho-processor/src/main/java/com/facebook/litho/specmodels/model/StateValidation.java:47-59 | one pair of state values yields at most two errors, and none iff the names differ or both boxed type and canUpdateLazily agree |
| `StateValidation.PairMembership` | litho-processor/src/main/java/com/facebook/litho/specmodels/model/StateValidation.java:47-59 | an error comes from a pair iff the names are equal, it is attached to the later value, and the two values differ as its kind says |
| `StateValidation.StateValueErrorsMembership` | litho-processor/src/main/java/com/facebook/litho/specmodels/model/StateValidation.java:42-61 | an error is reported iff some pair i < j has equal names and differs as that error's kind says; the error is attached to element j |
| `StateValidation.StateValueErrorsCount` | litho-processor/src/main/java/com/facebook/litho/specmodels/model/StateValidation.java:42-61 | exact count: one type error per same-named pair whose boxed types differ, plus one lazy error per same-named pair whose canUpdateLazily differs; pairs are not de-duplicated and no other kind appears |
| `StateValidation.StateValueErrorsOccurrences` | litho-processor/src/main/java/com/facebook/litho/specmodels/model/StateValidation.java:42-61 | the error of a given kind on a given element occurs exactly once per earlier same-named value that disagrees with that element in that way: every pair is reported on its later value and nothing is merged |
| `StateValidation.StateValueErrorsEmptyIff` | litho-processor/src/main/java/com/facebook/litho/specmodels/model/StateValidation.java:38-65 | validateStateValues returns no error iff all same-named state values agree on boxed type and on canUpdateLazily |
| `StateValidation.DistinctStateNamesNoErrors` | litho-processor/src/main/java/com/facebook/litho/specmodels/model/StateValidation.java:42-47 | pairwise distinct names, in particular zero or one state value, give an empty list |
| `StateValidation.PrimitiveAndWrapperNeverMismatch` | litho-processor/src/main/java/com/facebook/litho/specmodels/model/StateValidation.java:48 | a primitive state value and a same-named value of its wrapper class never produce a type mismatch |
| `StateValidation.PrimitiveAndBoxedStateAgree` | litho-processor/src/main/java/com/facebook/litho/specmodels/model/StateValidation.java:47-52 | worked example: `int count` next to `Integer count` reports nothing |
| `StateValidation.RepeatedNameReportsEveryPair` | litho-processor/src/main/java/com/facebook/litho/specmodels/model/StateValidation.java:42-61 | worked example: three same-named values of three types give exactly five errors in pair order, and the third value is blamed for both of its pairs |
| `StateValidation.PropClashErrors` | litho-processor/src/main/java/com/facebook/litho/specmodels/model/StateValidation.java:102-109 | a @Param parameter gets one prop-clash error per prop with its name, all attached to the parameter |
| `StateValidation.StateClashErrors` | litho-processor/src/main/java/com/facebook/litho/specmodels/model/StateValidation.java:110-117 | a @Param parameter gets one state-clash error per state value with its name, all attached to the parameter |
| `StateValidation.DefinesStateValueFrom` | litho-processor/src/main/java/com/facebook/litho/specmodels/model/StateValidation.java:156-165 | definesStateValue is true iff some state value has the name and an equal boxed type |
| `StateValidation.ParamErrors` | litho-processor/src/main/java/com/facebook/litho/specmodels/model/StateValidation.java:98-150 | for a @Param parameter, the error count is the number of props with its name plus the number of state values with its name; any other parameter yields at most one error; every error is attached to the parameter |
| `StateValidation.ParamClashOrder` | litho-processor/src/main/java/com/facebook/litho/specmodels/model/StateValidation.java:102-117 | a @Param parameter's errors are first one ParamNamedLikeProp per same-named prop, then one ParamNamedLikeState per same-named state value, all on the parameter |
| `StateValidation.ParamErrorsEmptyIff` | litho-processor/src/main/java/com/facebook/litho/specmodels/model/StateValidation.java:98-150 | a parameter yields no error iff it obeys the documented rules: a @Param name is neither a prop nor a state name; any other parameter is `StateValue<T>` with one non-wildcard T, and some state value has its name and T's boxed type |
| `StateValidation.NonParamErrorOrder` | litho-processor/src/main/java/com/facebook/litho/specmodels/model/StateValidation.java:119-150 | a non-@Param parameter's checks run in a fixed order (not a StateValue, then bad type argument, then no matching state); the first failing check is the single error |
| `StateValidation.ParamsErrorsEmptyIff` | litho-processor/src/main/java/com/facebook/litho/specmodels/model/StateValidation.java:98-151 | the parameter loop reports nothing iff no single parameter does |
| `StateValidation.MethodErrors` | litho-processor/src/main/java/com/facebook/litho/specmodels/model/StateValidation.java:95-96 | the method-is-static errors come first, before every parameter error |
| `StateValidation.MethodErrorsEmptyIff` | litho-processor/src/main/java/com/facebook/litho/specmodels/model/StateValidation.java:89-154 | an empty list means the method is well-formed, and conversely: the static check passes and every parameter obeys the rules |
| `StateValidation.UpdateMethodsErrorsAppend` | litho-processor/src/main/java/com/facebook/litho/specmodels/model/StateValidation.java:67-75 | validateOnUpdateStateMethods is the in-order concatenation of the per-method results: the result for a concatenated method list is the concatenation of the results |
| `StateValidation.UpdateMethodsErrorsEmptyIff` | litho-processor/src/main/java/com/facebook/litho/specmodels/model/StateValidation.java:67-75 | no update-state method error iff every method is well-formed |
| `StateValidation.ValidateEmptyIff` | litho-processor/src/main/java/com/facebook/litho/specmodels/model/StateValidation.java:30-36 | validate reports nothing iff the state values are consistent and every update-state method is well-formed |
| `StateValidation.ValidateOrder` | litho-processor/src/main/java/com/facebook/litho/specmodels/model/StateValidation.java:30-36 | the first (type-clash count + lazy-clash count) errors are state-value conflicts; the rest is exactly the update-state method errors |
| `AndroidText.ActionMasked` | litho-widget/src/main/java/com/facebook/litho/widget/TextDrawable.java:204 | the masked action is a byte, and equals the raw action when that lies in 0..255 |
| `AndroidText.ActionMaskedLowByte` | litho-widget/src/main/java/com/facebook/litho/widget/TextDrawable.java:204 | a raw action hi * 256 + lo with lo in 0..255 masks to lo, whatever pointer-index bits hi holds |
| `AndroidText.Alpha` | litho-widget/src/main/java/com/facebook/litho/widget/TextDrawable.java:478 | the alpha channel is a byte, and zero for any colour in 0 .. 2^24 - 1 |
| `AndroidText.AlphaTopByte` | litho-widget/src/main/java/com/facebook/litho/widget/TextDrawable.java:478 | a colour with alpha byte a over any 24-bit RGB part has alpha a, both as the unsigned 32-bit pattern and as the negative int that stores the same bits |
| `TextDrawable.NewDrawable` | litho-widget/src/main/java/com/facebook/litho/widget/TextDrawable.java:50-70 | a new drawable has no text, no layout, no touch handling and an empty selection, and satisfies the invariant |
| `TextDrawable.GetTextItems` | litho-widget/src/main/java/com/facebook/litho/widget/TextDrawable.java:378-381 | at most one item; empty iff no text is mounted; the item is the mounted text |
| `TextDrawable.ContainsLongClickableSpan` | litho-widget/src/main/java/com/facebook/litho/widget/TextDrawable.java:315-327 | false for a null array, otherwise true iff some element is a long-clickable span |
| `TextDrawable.MountedHighlightPath` | litho-widget/src/main/java/com/facebook/litho/widget/TextDrawable.java:296-300 | with the corrected mount, a visible highlight and offsets that pass highlightOffsetsValid select exactly that range; the next path request returns the path that the newly mounted layout computes for it, and the paint has the new highlight colour; the range is non-empty and inside the text |
| `TextDrawable.SetSelection` | litho-widget/src/main/java/com/facebook/litho/widget/TextDrawable.java:504-522 | a no-op when the highlight alpha is 0 or the range is unchanged; with a visible highlight the range afterwards is the requested one, and a change marks the path stale and sets the paint colour; nothing else changes; the path-cache invariant is kept |
| `TextDrawable.ClearSelection` | litho-widget/src/main/java/com/facebook/litho/widget/TextDrawable.java:524-526 | with a visible highlight the range becomes (0, 0); with alpha 0 nothing changes |
| `TextDrawable.SetSelectionToSpan` | litho-widget/src/main/java/com/facebook/litho/widget/TextDrawable.java:494-497 | with a visible highlight the range becomes the span's start and end in the text |
| `TextDrawable.GetSelectionPath` | litho-widget/src/main/java/com/facebook/litho/widget/TextDrawable.java:473-492 | none, with no state change, when start == end or the alpha is 0; otherwise, given the cache invariant, the path that the mounted layout computes for the current range, and the path is no longer stale; only the cache fields change |
| `TextDrawable.Mount` | litho-widget/src/main/java/com/facebook/litho/widget/TextDrawable.java:262-313 | corrected mount (see Findings): the drawable the as-written mount produces, except that the selection path is always marked stale and, under a visible highlight, the paint takes the new highlight colour; with alpha 0 the paint colour is left as it was |
| `TextDrawable.MountAsWritten` | litho-widget/src/main/java/com/facebook/litho/widget/TextDrawable.java:262-313 | as written: stores text, layout, spans, listener and clickableSpanExpandedOffset; shouldHandleTouch iff the span array is non-null and non-empty; the handler exists iff it did before or a span is long-clickable; a non-zero userColor drops the colour list (not stateful), otherwise the given or default list is used with its default colour; with a visible highlight the selection becomes the offsets when valid and (0, 0) otherwise, and with alpha 0 it is kept; bounds and long-click state are untouched |
| `TextDrawable.MountSameRangeKeepsPath` | litho-widget/src/main/java/com/facebook/litho/widget/TextDrawable.java:296-300 | as written, valid offsets equal to the range already selected under a visible highlight make setSelection return early: the cached path, its stale flag and the paint colour stay as they were |
| `TextDrawable.MountReusesStalePath` | litho-widget/src/main/java/com/facebook/litho/widget/TextDrawable.java:296-300 | remounting a different layout with the same, already selected, highlight range: the next path request returns the path cached for the old layout, not one computed by the new layout; the cache invariant fails; the paint keeps its old colour while the highlight colour is the new one |
| `TextDrawable.MountKeepsValid` | litho-widget/src/main/java/com/facebook/litho/widget/TextDrawable.java:262-313 | the corrected mount preserves the drawable invariant, including the path cached for the mounted layout |
| `TextDrawable.MountWithSpans` | litho-widget/src/main/java/com/facebook/litho/widget/TextDrawable.java:239-245 | the span overload sets no highlight colour, listener or image spans, and leaves the selection as it was, because alpha 0 makes clearing a no-op |
| `TextDrawable.MountWithHighlight` | litho-widget/src/main/java/com/facebook/litho/widget/TextDrawable.java:247-249 | the highlight overload handles no span touches and, with a visible highlight, clears the selection |
| `TextDrawable.MountStyled` | litho-widget/src/main/java/com/facebook/litho/widget/TextDrawable.java:251-260 | as written, the seven-argument overload always yields translation 0 and, for userColor 0, the default colour list |
| `TextDrawable.MountStyledDropsStyle` | litho-widget/src/main/java/com/facebook/litho/widget/TextDrawable.java:251-260 | a translation of 5 and the caller's own colour list give the same drawable as 0 and null |
| `TextDrawable.MountStyledForwarding` | litho-widget/src/main/java/com/facebook/litho/widget/TextDrawable.java:251-260 | the corrected overload keeps the given translation and colour list |
| `TextDrawable.Unmount` | litho-widget/src/main/java/com/facebook/litho/widget/TextDrawable.java:333-351 | afterwards text and layout are null, getTextItems is empty, shouldHandleTouch is false and the drawable is not stateful; selection, long-click state and bounds are unchanged; the invariant is kept |
| `TextDrawable.TextOffsetAt` | litho-widget/src/main/java/com/facebook/litho/widget/TextDrawable.java:408-424 | -1 when x lies outside [min(start, end), max(start, end)] of the line at y; otherwise the layout's offset for x on that line (which the layout may itself report as -1) |
| `TextDrawable.TextOffsetAtDirectionFree` | litho-widget/src/main/java/com/facebook/litho/widget/TextDrawable.java:408-424 | the lookup is the same for a left-to-right and a right-to-left line: swapping the horizontals of the line start and visible end changes nothing |
| `TextDrawable.SpanInCoords` | litho-widget/src/main/java/com/facebook/litho/widget/TextDrawable.java:390-406 | a span iff the point maps to an offset with spans; then the first of them |
| `TextDrawable.SpanInProximityUnique` | litho-widget/src/main/java/com/facebook/litho/widget/TextDrawable.java:456-470 | the lookup answers a span iff exactly one array position is close to the tap, and then answers that span; zero or several give none |
| `TextDrawable.ResetLongClick` | litho-widget/src/main/java/com/facebook/litho/widget/TextDrawable.java:172-178 | activation is false afterwards; with a handler the pending callback is gone, without one it is kept; nothing else changes |
| `TextDrawable.RegisteredLongClickLifecycle` | litho-widget/src/main/java/com/facebook/litho/widget/TextDrawable.java:172-183 | after registering a span's long click, running the callback sets activation to the span's answer; a reset with a handler removes the callback, and without a handler leaves it |
| `TextDrawable.RunLongClick` | litho-widget/src/main/java/com/facebook/litho/widget/TextDrawable.java:572-575 | a pending callback sets activation to onLongClick's answer; only that flag changes |
| `TextDrawable.MoveTracksPendingLongClick` | litho-widget/src/main/java/com/facebook/litho/widget/TextDrawable.java:218-231 | a move with a pending, unactivated long click keeps it pending when it stays inside the bounds on the pending span, and cancels it when it leaves the bounds or lands anywhere else |
| `TextDrawable.HandleTouchForSpans` | litho-widget/src/main/java/com/facebook/litho/widget/TextDrawable.java:121-170 | cancel clears the selection, resets long click and returns false; up always ends the long click; outside the bounds nothing is consumed; a consumed touch hit a span; a click fires only on up when long click was not activated before the reset, and it is the hit span's; only selection and long-click fields change; the converse of "consumed implies hit" is HitInBoundsIsConsumed |
| `TextDrawable.HandleTouchKeepsValid` | litho-widget/src/main/java/com/facebook/litho/widget/TextDrawable.java:121-170 | span touch handling preserves the drawable invariant |
| `TextDrawable.HandleTextOffsetChange` | litho-widget/src/main/java/com/facebook/litho/widget/TextDrawable.java:185-194 | the listener hears at most one offset, the one under the touch, and only when it lies in [0, length of text] |
| `TextDrawable.OnTouchEvent` | litho-widget/src/main/java/com/facebook/litho/widget/TextDrawable.java:105-119 | a consumed touch came through a span predicate, is not a cancel, and is exactly the span handler's result; clicks come only from consumed ups with no activated long click; an offset is reported only for a touch the spans did not consume, that shouldHandleTextOffsetOnTouch accepts, and that lies within the text; an uninteresting event changes nothing; the converse is SpanConsumedTouchIsConsumed |
| `TextDrawable.UnconsumedTouchReachesListener` | litho-widget/src/main/java/com/facebook/litho/widget/TextDrawable.java:111-118 | a touch the spans leave unconsumed reports exactly what handleTextOffsetChange reports when shouldHandleTextOffsetOnTouch accepts it, and nothing otherwise |
| `TextDrawable.CancelAlwaysHandled` | litho-widget/src/main/java/com/facebook/litho/widget/TextDrawable.java:203-208 | a cancel is always of interest and always clears the selection, resets long click and consumes nothing |
| `TextDrawable.UnmountedHandlesOnlyCancel` | litho-widget/src/main/java/com/facebook/litho/widget/TextDrawable.java:196-201 | after unmount, shouldHandleTouchEvent is true exactly for a cancel |
| `TextDrawable.MountedSpanHandling` | litho-widget/src/main/java/com/facebook/litho/widget/TextDrawable.java:283 | after a mount, a down inside the bounds is handled for spans iff the span array was non-null and non-empty |
| `TextDrawable.LongClickSuppressesClick` | litho-widget/src/main/java/com/facebook/litho/widget/TextDrawable.java:133-161 | an up after an activated long click fires no click |
| `TextDrawable.UpOnSpanClicks` | litho-widget/src/main/java/com/facebook/litho/widget/TextDrawable.java:157-161 | an up on a span with no activated long click fires exactly that span's click, is consumed, leaves long click inactive, and with a visible highlight clears the selection |
| `TextDrawable.DownOnSpanSelects` | litho-widget/src/main/java/com/facebook/litho/widget/TextDrawable.java:162-169 | a down inside the bounds on a span is consumed and fires nothing; with a visible highlight the selection becomes the span's range; a long-clickable span is registered for long click and any other span leaves the pending long click as it was |
| `TextDrawable.MissClearsSelection` | litho-widget/src/main/java/com/facebook/litho/widget/TextDrawable.java:139-155 | a non-cancel touch inside the bounds that hits no span is not consumed and fires nothing; with a visible highlight the selection becomes (0, 0), otherwise it is unchanged |
| `TextDrawable.HitInBoundsIsConsumed` | litho-widget/src/main/java/com/facebook/litho/widget/TextDrawable.java:139-169 | conversely to HandleTouchForSpans' "consumed implies hit": every non-cancel touch inside the bounds that hits a span is consumed, be it a down, a move or an up after an activated long click |
| `TextDrawable.SpanConsumedTouchIsConsumed` | litho-widget/src/main/java/com/facebook/litho/widget/TextDrawable.java:105-110 | when a span predicate accepts a touch and the span handler consumes it, onTouchEvent returns exactly the span handler's result |
| `TextDrawable.LongPressThenLift` | litho-widget/src/main/java/com/facebook/litho/widget/TextDrawable.java:121-170 | with a long-click handler present, down on a long-clickable span schedules its long click; if the callback runs and handles it, the lift fires nothing, otherwise the lift fires the click |

## Left out

- The reconciliation and mount engine (MountState, LayoutState, diffing) is not part of this model. Its source is not among the modelled files. `MountStateRemountInPlaceTest.java` only exercises it, so modelling the test would restate its outcomes as axioms.
- `SpecMethodModelValidation.validateMethodIsStatic` is not part of this model. It enters as the uninterpreted parameter `staticCheck`.
- Error message text is not modelled. Errors carry a kind tag instead.
- JavaPoet internals are not modelled: type annotations, and equality by rendered string. Types compare structurally.
- Drawing is not modelled: `draw`, `onStateChange`, the paint colour set on the layout, `ColorStateList.getColorForState`, `getColor`, `setAlpha`, `setColorFilter` and `getOpacity`. All are rendering or platform colour resolution.
- Geometry is not modelled: `isClickCloseToSpan`, the `Region`/`Path` construction and the tap-circle intersection. They are floating-point graphics, kept as the uninterpreted `isClickCloseToSpan`.
- `GetSelectionPath`: a path records the identity of the layout that computed it and the range, not its geometry. A layout's identity is the `id` of the model's `Layout` value, standing for the Java object.
- Float coordinates are not modelled: event coordinates are the truncated ints, and layout horizontal positions are exact reals.
- 32-bit overflow of the coordinate subtraction `x - bounds.left` is not modelled. Real coordinates are far from the int range.
- Long-click timing is not modelled (`Handler.postDelayed`, the long-press timeout). A callback that a later registration superseded but did not cancel also stays posted in the source; it is not modelled. Only the current pending callback can run (`RunLongClick`).
- Image-span drawable callbacks and visibility toggling are not modelled, nor `invalidateSelf`, `scheduleDrawable` and `unscheduleDrawable`. The image-span array is only stored and cleared.
- Mount with a null text or a null layout is not modelled. With a null text and non-negative highlight offsets the source throws. After mounting a null layout with spans, a touch inside the bounds that reaches the span or offset lookup throws; a cancel, or a touch outside the bounds, does not reach the layout.
- Registering a long click when no handler was ever created is not modelled. That happens when the text holds a long-clickable span that the span array lacks, and the source then throws on `postDelayed`; the model records the pending span.
- The characters of the text are not modelled. `TextDrawable` reads only its length and its span positions, so a text is its UTF-16 length plus its span queries.
- `getClickableSpans` and `getText` are plain field reads of `clickableSpans` and `text`.

## Findings

| source | as written | input that shows it | evidently intended | confidence | as-written member | corrected member |
|---|---|---|---|---|---|---|
| litho-widget/src/main/java/com/facebook/litho/widget/TextDrawable.java:251-260 | the seven-argument `mount` overload passes `0` and `null` to the full mount in place of its own `layoutTranslationY` and `colorStateList` arguments | `layoutTranslationY = 5`, `colorStateList` = the caller's own list, `userColor = 0`: the drawable gets translation 0 and the default colour list | forward both arguments, as the overload's signature promises | medium; not executed | `TextDrawable.MountStyledDropsStyle` | `TextDrawable.MountStyledForwarding` |
| litho-widget/src/main/java/com/facebook/litho/widget/TextDrawable.java:296-300 | `mount` calls `setSelection(start, end)`, which returns early when the range is unchanged (lines 505-507); neither `mount` nor `unmount` (333-351) sets `mSelectionPathNeedsUpdate`, so `getSelectionPath` (482-491) keeps the path cached for the previous layout, and the skipped `mHighlightPaint.setColor` (513-518) keeps the previous highlight colour | a drawable whose path for (0, 3) was drawn with layout A is mounted again with layout B, a visible highlight and offsets (0, 3): the next draw gets the path A computed, in the paint colour of the earlier mount (an `unmount` in between keeps the range, the cached path and the paint) | mark the selection path stale on mount and set the paint to the new highlight colour, so the next draw recomputes the path with the new layout and paints it in the new colour | medium; not executed | `TextDrawable.MountReusesStalePath` | `TextDrawable.MountedHighlightPath` |

=== FILE: android_text.dfy ===
/**
 The Android platform values TextDrawable reads: motion events, rectangles,
 colour channels, clickable spans, and the queries it makes of a text
 Layout and a Spanned text. Layout and span geometry is not computed here;
 each query is an uninterpreted function carried by the value it belongs to.
 */
module AndroidText {

  /** MotionEvent action codes (the masked action). */
  const ACTION_DOWN: int := 0
  const ACTION_UP: int := 1
  const ACTION_MOVE: int := 2
  const ACTION_CANCEL: int := 3

  /** A touch event. The coordinates are those of getX()/getY() already
      truncated to int, which is how every use in TextDrawable reads them.
      `action` is the raw getAction() value (pointer index bits included). */
  datatype MotionEvent = MotionEvent(action: int, x: int, y: int)

  /** getActionMasked(): the low eight bits of the action. For a 32-bit
      two's-complement value, `& 0xff` equals the non-negative remainder. */
  function ActionMasked(e: MotionEvent): (a: int)
    ensures 0 <= a < 0x100
    ensures 0 <= e.action < 0x100 ==> a == e.action
  {
    e.action % 0x100
  }

  /** The masked action is the low byte of the raw action, whatever the
      pointer-index bits above it hold. */
  lemma ActionMaskedLowByte(hi: int, lo: int, x: int, y: int)
    requires 0 <= lo < 0x100
    ensures ActionMasked(MotionEvent(hi * 0x100 + lo, x, y)) == lo
  {
  }

  /** android.graphics.Rect. */
  datatype Rect = Rect(left: int, top: int, right: int, bottom: int)

  /** Rect.contains(x, y): the rectangle is non-empty and the point lies in
      it, left/top edges inclusive, right/bottom edges exclusive. */
  predicate Contains(r: Rect, x: int, y: int)
  {
    r.left < r.right && r.top < r.bottom && r.left <= x < r.right && r.top <= y < r.bottom
  }

  /** Color.alpha: the top byte of the 32-bit ARGB colour (color >>> 24). */
  function Alpha(color: int): (a: int)
    ensures 0 <= a < 0x100
    ensures 0 <= color < 0x100_0000 ==> a == 0
  {
    (color % 0x1_0000_0000) / 0x100_0000
  }

  /** Alpha is the top byte of an ARGB colour, read from the unsigned
      32-bit pattern or from the negative int that stores the same bits. */
  lemma AlphaTopByte(a: int, rgb: int)
    requires 0 <= a < 0x100 && 0 <= rgb < 0x100_0000
    ensures Alpha(a * 0x100_0000 + rgb) == a
    ensures Alpha(a * 0x100_0000 + rgb - 0x1_0000_0000) == a
  {
  }

  /** A ClickableSpan, possibly the LongClickableSpan subclass; `id` stands
      for the span object's identity. */
  datatype Span = ClickableSpan(id: nat) | LongClickableSpan(id: nat)

  /** The Spanned text: its length and the span queries TextDrawable makes
      of it. TextDrawable reads no characters, only offsets into the text. */
  datatype Text = Text(
    /** CharSequence.length(): the number of UTF-16 code units */
    length: nat,
    /** getSpans(offset, offset, ClickableSpan.class) */
    spansAt: int -> seq<Span>,
    /** getSpanStart(span) */
    spanStart: Span -> int,
    /** getSpanEnd(span) */
    spanEnd: Span -> int)

  /** The text Layout queries TextDrawable makes. */
  datatype Layout = Layout(
    /** the identity of the Layout object */
    id: nat,
    /** getLineForVertical(y) */
    lineForVertical: int -> int,
    /** getLineStart(line) */
    lineStart: int -> int,
    /** getLineVisibleEnd(line) */
    lineVisibleEnd: int -> int,
    /** getPrimaryHorizontal(offset) */
    primaryHorizontal: int -> real,
    /** getOffsetForHorizontal(line, x) */
    offsetForHorizontal: (int, real) -> int,
    /** whether the span's selection path, clipped to the layout, meets the
        circle of the given radius around the tap point (isClickCloseToSpan) */
    isClickCloseToSpan: (Span, int, int, real) -> bool)
}

=== FILE: java_types.dfy ===
/**
 A small model of JavaPoet's TypeName hierarchy: just enough structure for
 the state validator, which asks whether a type is a parameterized
 `StateValue<...>`, whether a type argument is a wildcard, and whether two
 types are equal after boxing.
 */
module JavaTypes {

  /** The primitive keywords of TypeName, `void` included. */
  datatype Primitive = Boolean | Byte | Short | Int | Long | Char | Float | Double | Void

  /** A TypeName. Class names are fully qualified; equality is structural,
      as JavaPoet's equality on the rendered type is. */
  datatype TypeName =
    | PrimitiveType(keyword: Primitive)
    | ClassType(qualifiedName: string)
    | ParameterizedType(rawType: string, typeArguments: seq<TypeName>)
    | WildcardType(upperBounds: seq<TypeName>, lowerBounds: seq<TypeName>)
    | ArrayType(componentType: TypeName)
    | TypeVariable(name: string)

  /** The java.lang wrapper class of a primitive keyword. */
  function BoxedName(p: Primitive): string
  {
    match p
    case Boolean => "java.lang.Boolean"
    case Byte => "java.lang.Byte"
    case Short => "java.lang.Short"
    case Int => "java.lang.Integer"
    case Long => "java.lang.Long"
    case Char => "java.lang.Character"
    case Float => "java.lang.Float"
    case Double => "java.lang.Double"
    case Void => "java.lang.Void"
  }

  /** TypeName.box(): a primitive becomes its wrapper class, every other type
      is returned unchanged. */
  function Box(t: TypeName): (r: TypeName)
    ensures !r.PrimitiveType?
    ensures !t.PrimitiveType? ==> r == t
  {
    match t
    case PrimitiveType(p) => ClassType(BoxedName(p))
    case _ => t
  }

  /** A primitive and its wrapper class are the same type once boxed. */
  lemma BoxedFormsAgree(p: Primitive)
    ensures Box(PrimitiveType(p)) == Box(ClassType(BoxedName(p)))
  {
  }
}

=== FILE: spec_models.dfy ===
/**
 The parts of a Litho SpecModel that the @State / @OnUpdateState validator
 reads: the declared state values, the props, and the update-state methods
 with their parameters; and the validation errors it produces.
 */
module SpecModels {
  import opened JavaTypes

  /** The program element an error is reported against (the model's
      "represented object"), as an opaque identity. */
  type Element = nat

  /** Qualified name of com.facebook.litho.StateValue, the holder type that
      non-@Param parameters of an @OnUpdateState method must have. */
  const StateValueClass: string := "com.facebook.litho.StateValue"

  /** A @State parameter of the spec. */
  datatype StateParamModel = StateParamModel(
    name: string,
    typ: TypeName,
    canUpdateLazily: bool,
    element: Element)

  /** A @Prop of the spec. */
  datatype PropModel = PropModel(name: string, typ: TypeName, element: Element)

  /** Annotations a method parameter may carry; only @Param matters here. */
  datatype Annotation = ParamAnnotation | StateAnnotation | PropAnnotation | OtherAnnotation(name: string)

  /** A parameter of an @OnUpdateState method. */
  datatype MethodParamModel = MethodParamModel(
    name: string,
    typ: TypeName,
    annotations: seq<Annotation>,
    element: Element)

  /** An @OnUpdateState method. */
  datatype UpdateStateMethod = UpdateStateMethod(
    name: string,
    methodParams: seq<MethodParamModel>,
    element: Element)

  /** The spec model as seen by the state validator. */
  datatype SpecModel = SpecModel(
    stateValues: seq<StateParamModel>,
    props: seq<PropModel>,
    updateStateMethods: seq<UpdateStateMethod>)

  /** Which rule an error reports. Kinds whose message embeds names or types
      carry them. */
  datatype ErrorKind =
      /** two state values share a name but not their boxed type */
    | StateTypeMismatch
      /** two state values share a name but not canUpdateLazily */
    | StateLazyMismatch
      /** a @Param parameter is named like a prop */
    | ParamNamedLikeProp
      /** a @Param parameter is named like a state value */
    | ParamNamedLikeState
      /** a non-@Param parameter is not a StateValue<...> */
    | NotAStateValue(paramName: string, paramType: TypeName)
      /** a StateValue parameter lacks a single non-wildcard type argument */
    | MissingTypeArgument(paramName: string, methodName: string)
      /** a StateValue parameter matches no state value by name and type */
    | NoMatchingState
      /** an error reported by the separate method-is-static check */
    | MethodCheck(message: string)

  /** SpecModelValidationError: the element at fault and the rule broken. */
  datatype ValidationError = ValidationError(element: Element, kind: ErrorKind)

  /** MethodParamModelUtils.isAnnotatedWith(param, Param.class). */
  predicate IsParamAnnotated(p: MethodParamModel)
  {
    ParamAnnotation in p.annotations
  }
}

=== FILE: state_validation.dfy ===
/**
 The @State / @OnUpdateState validator of the annotation processor: a pure
 function from a spec model to the ordered list of validation errors. An
 empty list means the state declarations and every update-state method are
 well-formed.
 */
module StateValidation {
  import opened JavaTypes
  import opened SpecModels

  // ---------------------------------------------------------------------
  // validateStateValues: pairwise consistency of same-named state values
  // ---------------------------------------------------------------------

  /** Whether two state values disagree in the way an error of `kind`
      reports: boxed type for a type mismatch, canUpdateLazily for a lazy
      mismatch. No other kind is produced by this check. */
  predicate Differs(a: StateParamModel, b: StateParamModel, kind: ErrorKind)
  {
    || (kind == StateTypeMismatch && Box(a.typ) != Box(b.typ))
    || (kind == StateLazyMismatch && a.canUpdateLazily != b.canUpdateLazily)
  }

  /** The errors one pair (earlier `first`, later `second`) contributes:
      both are attached to `second`, type before canUpdateLazily. */
  function PairErrors(first: StateParamModel, second: StateParamModel): (r: seq<ValidationError>)
    ensures |r| <= 2
    ensures r == [] <==>
              first.name != second.name
              || (Box(first.typ) == Box(second.typ) && first.canUpdateLazily == second.canUpdateLazily)
  {
    if first.name == second.name then
      (if Box(first.typ) != Box(second.typ) then [ValidationError(second.element, StateTypeMismatch)] else [])
      + (if first.canUpdateLazily != second.canUpdateLazily then [ValidationError(second.element, StateLazyMismatch)] else [])
    else
      []
  }

  /** An error comes from a pair exactly when the names agree and the two
      values disagree as the error's kind says; it names the later value. */
  lemma PairMembership(first: StateParamModel, second: StateParamModel, e: ValidationError)
    ensures e in PairErrors(first, second) <==>
              first.name == second.name && e.element == second.element && Differs(first, second, e.kind)
  {
  }

  /** The inner loop: pairs (i, j), (i, j + 1), ..., (i, |s| - 1). */
  function InnerErrors(s: seq<StateParamModel>, i: nat, j: nat): seq<ValidationError>
    requires i < j <= |s|
    decreases |s| - j
  {
    if j == |s| then [] else PairErrors(s[i], s[j]) + InnerErrors(s, i, j + 1)
  }

  /** The outer loop, from index i while i < |s| - 1. */
  function OuterErrors(s: seq<StateParamModel>, i: nat): seq<ValidationError>
    decreases |s| - i
  {
    if i + 1 >= |s| then [] else InnerErrors(s, i, i + 1) + OuterErrors(s, i + 1)
  }

  /** validateStateValues. */
  function StateValueErrors(s: seq<StateParamModel>): seq<ValidationError>
  {
    OuterErrors(s, 0)
  }

  /** Error `e` is the one reported for the pair i < j. */
  ghost predicate Conflict(s: seq<StateParamModel>, i: int, j: int, e: ValidationError)
  {
    && 0 <= i < j < |s|
    && s[i].name == s[j].name
    && e.element == s[j].element
    && Differs(s[i], s[j], e.kind)
  }

  /** Error `e` is reported for some pair of state values. */
  ghost predicate ReportedConflict(s: seq<StateParamModel>, e: ValidationError)
  {
    exists i, j :: Conflict(s, i, j, e)
  }

  /** The same-named pairs i < j that disagree as `kind` reports. */
  ghost function Conflicts(s: seq<StateParamModel>, kind: ErrorKind): set<(int, int)>
  {
    set i, j | 0 <= i < j < |s| && s[i].name == s[j].name && Differs(s[i], s[j], kind) :: (i, j)
  }

  /** Same-named state values agree on boxed type and on canUpdateLazily. */
  ghost predicate StateValuesConsistent(s: seq<StateParamModel>)
  {
    forall i, j | 0 <= i < j < |s| && s[i].name == s[j].name ::
      Box(s[i].typ) == Box(s[j].typ) && s[i].canUpdateLazily == s[j].canUpdateLazily
  }

  /** Number of errors of the given kind in a list. */
  function CountKind(r: seq<ValidationError>, kind: ErrorKind): nat
  {
    if r == [] then 0 else (if r[0].kind == kind then 1 else 0) + CountKind(r[1..], kind)
  }

  lemma {:induction false} CountKindAppend(a: seq<ValidationError>, b: seq<ValidationError>, kind: ErrorKind)
    ensures CountKind(a + b, kind) == CountKind(a, kind) + CountKind(b, kind)
    decreases |a|
  {
    if a == [] {
      assert a + b == b;
    } else {
      assert (a + b)[1..] == a[1..] + b;
      CountKindAppend(a[1..], b, kind);
    }
  }

  lemma {:induction false} InnerMembership(s: seq<StateParamModel>, i: nat, j: nat, e: ValidationError)
    requires i < j <= |s|
    ensures e in InnerErrors(s, i, j) <==> exists b :: j <= b && Conflict(s, i, b, e)
    decreases |s| - j
  {
    if j < |s| {
      assert InnerErrors(s, i, j) == PairErrors(s[i], s[j]) + InnerErrors(s, i, j + 1);
      InnerMembership(s, i, j + 1, e);
      PairMembership(s[i], s[j], e);
      if e in PairErrors(s[i], s[j]) {
        assert Conflict(s, i, j, e);
      }
      if exists b :: j <= b && Conflict(s, i, b, e) {
        var b :| j <= b && Conflict(s, i, b, e);
        if b > j {
          assert j + 1 <= b && Conflict(s, i, b, e);
        }
      }
    }
  }

  /** A conflict whose earlier index is at least i has it equal to i or
      at least i + 1. */
  lemma OuterStep(s: seq<StateParamModel>, i: nat, e: ValidationError)
    ensures (exists a, b :: i <= a && Conflict(s, a, b, e))
            <==> (exists b :: i + 1 <= b && Conflict(s, i, b, e)) || (exists a, b :: i + 1 <= a && Conflict(s, a, b, e))
  {
    if exists a, b :: i <= a && Conflict(s, a, b, e) {
      var a, b :| i <= a && Conflict(s, a, b, e);
      if a == i {
        assert i + 1 <= b && Conflict(s, i, b, e);
      } else {
        assert i + 1 <= a && Conflict(s, a, b, e);
      }
    }
    if exists b :: i + 1 <= b && Conflict(s, i, b, e) {
      var b :| i + 1 <= b && Conflict(s, i, b, e);
      assert i <= i && Conflict(s, i, b, e);
    }
    if exists a, b :: i + 1 <= a && Conflict(s, a, b, e) {
      var a, b :| i + 1 <= a && Conflict(s, a, b, e);
      assert i <= a && Conflict(s, a, b, e);
    }
  }

  lemma {:induction false} OuterMembership(s: seq<StateParamModel>, i: nat, e: ValidationError)
    ensures e in OuterErrors(s, i) <==> exists a, b :: i <= a && Conflict(s, a, b, e)
    decreases |s| - i
  {
    if i + 1 < |s| {
      var inner := InnerErrors(s, i, i + 1);
      var outer := OuterErrors(s, i + 1);
      assert OuterErrors(s, i) == inner + outer;
      assert e in inner + outer <==> e in inner || e in outer;
      InnerMembership(s, i, i + 1, e);
      OuterMembership(s, i + 1, e);
      OuterStep(s, i, e);
    }
  }

  /** An error is reported exactly when some earlier state value with the
      same name disagrees with the later one, and it is attached to the
      later one. */
  lemma StateValueErrorsMembership(s: seq<StateParamModel>, e: ValidationError)
    ensures e in StateValueErrors(s) <==> exists i, j :: Conflict(s, i, j, e)
  {
    OuterMembership(s, 0, e);
  }

  /** validateStateValues reports nothing iff same-named state values agree. */
  lemma StateValueErrorsEmptyIff(s: seq<StateParamModel>)
    ensures StateValueErrors(s) == [] <==> StateValuesConsistent(s)
  {
    if StateValueErrors(s) == [] {
      forall i, j | 0 <= i < j < |s| && s[i].name == s[j].name
        ensures Box(s[i].typ) == Box(s[j].typ) && s[i].canUpdateLazily == s[j].canUpdateLazily
      {
        if Box(s[i].typ) != Box(s[j].typ) {
          var e := ValidationError(s[j].element, StateTypeMismatch);
          assert Conflict(s, i, j, e);
          StateValueErrorsMembership(s, e);
        }
        if s[i].canUpdateLazily != s[j].canUpdateLazily {
          var e := ValidationError(s[j].element, StateLazyMismatch);
          assert Conflict(s, i, j, e);
          StateValueErrorsMembership(s, e);
        }
      }
    } else {
      var e := StateValueErrors(s)[0];
      StateValueErrorsMembership(s, e);
    }
  }

  /** Pairwise distinct names (in particular zero or one state value) give
      no errors. */
  lemma DistinctStateNamesNoErrors(s: seq<StateParamModel>)
    requires forall i, j | 0 <= i < j < |s| :: s[i].name != s[j].name
    ensures StateValueErrors(s) == []
  {
    StateValueErrorsEmptyIff(s);
  }

  /** The relation "pair a < b is reported as `kind`". */
  ghost function Clash(s: seq<StateParamModel>, kind: ErrorKind): (int, int) -> bool
  {
    (a: int, b: int) => 0 <= a < b < |s| && s[a].name == s[b].name && Differs(s[a], s[b], kind)
  }

  /** The pairs (i, b) with j <= b < n that satisfy p: one run of the inner loop. */
  ghost function Row(p: (int, int) -> bool, n: int, i: int, j: int): set<(int, int)>
  {
    set b | j <= b < n && p(i, b) :: (i, b)
  }

  /** The pairs (a, b) with i <= a < b < n that satisfy p: the outer loop from i. */
  ghost function Grid(p: (int, int) -> bool, n: int, i: int): set<(int, int)>
  {
    set a, b | i <= a < b < n && p(a, b) :: (a, b)
  }

  lemma RowSplit(p: (int, int) -> bool, n: int, i: int, j: int)
    requires j < n
    ensures |Row(p, n, i, j)| == (if p(i, j) then 1 else 0) + |Row(p, n, i, j + 1)|
  {
    var rest := Row(p, n, i, j + 1);
    forall x | x in Row(p, n, i, j) && x != (i, j) ensures x in rest {
      var b :| j <= b < n && p(i, b) && x == (i, b);
    }
    if p(i, j) {
      assert Row(p, n, i, j) == rest + {(i, j)};
      assert (i, j) !in rest;
    } else {
      assert Row(p, n, i, j) == rest;
    }
  }

  /** The number of b with j <= b < n such that p(i, b). */
  ghost function Tally(p: (int, int) -> bool, n: int, i: int, j: int): nat
    decreases n - j
  {
    if j >= n then 0 else (if p(i, j) then 1 else 0) + Tally(p, n, i, j + 1)
  }

  lemma {:induction false} RowCard(p: (int, int) -> bool, n: int, i: int, j: int)
    ensures |Row(p, n, i, j)| == Tally(p, n, i, j)
    decreases n - j
  {
    if j >= n {
      RowEmpty(p, n, i, j);
    } else {
      RowCard(p, n, i, j + 1);
      RowSplit(p, n, i, j);
    }
  }

  lemma RowEmpty(p: (int, int) -> bool, n: int, i: int, j: int)
    requires n <= j
    ensures |Row(p, n, i, j)| == 0
  {
    assert Row(p, n, i, j) == {};
  }

  lemma GridSplit(p: (int, int) -> bool, n: int, i: int)
    requires i + 1 < n
    ensures |Grid(p, n, i)| == |Row(p, n, i, i + 1)| + |Grid(p, n, i + 1)|
  {
    var row := Row(p, n, i, i + 1);
    var rest := Grid(p, n, i + 1);
    forall x | x in Grid(p, n, i) ensures x in row + rest {
      var a, b :| i <= a < b < n && p(a, b) && x == (a, b);
      if a == i {
        assert x in row;
      } else {
        assert x in rest;
      }
    }
    assert Grid(p, n, i) == row + rest;
    assert row * rest == {};
  }

  /** The errors of one pair, counted by kind. */
  lemma PairCount(first: StateParamModel, second: StateParamModel, kind: ErrorKind)
    ensures CountKind(PairErrors(first, second), kind)
            == if first.name == second.name && Differs(first, second, kind) then 1 else 0
  {
    if first.name == second.name {
      var t := if Box(first.typ) != Box(second.typ) then [ValidationError(second.element, StateTypeMismatch)] else [];
      var l := if first.canUpdateLazily != second.canUpdateLazily then [ValidationError(second.element, StateLazyMismatch)] else [];
      assert PairErrors(first, second) == t + l;
      CountKindAppend(t, l, kind);
    }
  }

  lemma {:induction false} InnerCount(s: seq<StateParamModel>, i: nat, j: nat, kind: ErrorKind)
    requires i < j <= |s|
    ensures CountKind(InnerErrors(s, i, j), kind) == Tally(Clash(s, kind), |s|, i, j)
    decreases |s| - j
  {
    if j < |s| {
      InnerCount(s, i, j + 1, kind);
      InnerStep(s, i, j, kind);
    }
  }

  /** One step of the inner loop, counted by kind. */
  lemma InnerStep(s: seq<StateParamModel>, i: nat, j: nat, kind: ErrorKind)
    requires i < j < |s|
    ensures CountKind(InnerErrors(s, i, j), kind)
            == (if Clash(s, kind)(i, j) then 1 else 0) + CountKind(InnerErrors(s, i, j + 1), kind)
  {
    assert InnerErrors(s, i, j) == PairErrors(s[i], s[j]) + InnerErrors(s, i, j + 1);
    CountKindAppend(PairErrors(s[i], s[j]), InnerErrors(s, i, j + 1), kind);
    PairCount(s[i], s[j], kind);
  }

  lemma {:induction false} OuterCount(s: seq<StateParamModel>, i: nat, kind: ErrorKind)
    ensures CountKind(OuterErrors(s, i), kind) == |Grid(Clash(s, kind), |s|, i)|
    decreases |s| - i
  {
    if i + 1 >= |s| {
      assert Grid(Clash(s, kind), |s|, i) == {};
    } else {
      assert OuterErrors(s, i) == InnerErrors(s, i, i + 1) + OuterErrors(s, i + 1);
      InnerCount(s, i, i + 1, kind);
      RowCard(Clash(s, kind), |s|, i, i + 1);
      OuterCount(s, i + 1, kind);
      CountKindAppend(InnerErrors(s, i, i + 1), OuterErrors(s, i + 1), kind);
      GridSplit(Clash(s, kind), |s|, i);
    }
  }

  /** The reported pairs are exactly the same-named disagreeing ones. */
  lemma ConflictsAsGrid(s: seq<StateParamModel>, kind: ErrorKind)
    ensures Conflicts(s, kind) == Grid(Clash(s, kind), |s|, 0)
  {
    forall x | x in Grid(Clash(s, kind), |s|, 0) ensures x in Conflicts(s, kind) {
      var a, b :| 0 <= a < b < |s| && Clash(s, kind)(a, b) && x == (a, b);
    }
  }

  /** Exact count: one type-mismatch error per same-named pair i < j whose
      boxed types differ, and one lazy-mismatch error per same-named pair
      whose canUpdateLazily differs; pairs are not de-duplicated, and no
      other kind of error is produced. */
  lemma StateValueErrorsCount(s: seq<StateParamModel>)
    ensures CountKind(StateValueErrors(s), StateTypeMismatch) == |Conflicts(s, StateTypeMismatch)|
    ensures CountKind(StateValueErrors(s), StateLazyMismatch) == |Conflicts(s, StateLazyMismatch)|
    ensures |StateValueErrors(s)| == |Conflicts(s, StateTypeMismatch)| + |Conflicts(s, StateLazyMismatch)|
  {
    OuterCount(s, 0, StateTypeMismatch);
    OuterCount(s, 0, StateLazyMismatch);
    ConflictsAsGrid(s, StateTypeMismatch);
    ConflictsAsGrid(s, StateLazyMismatch);
    forall e | e in StateValueErrors(s) ensures e.kind == StateTypeMismatch || e.kind == StateLazyMismatch {
      StateValueErrorsMembership(s, e);
    }
    OnlyStateKinds(StateValueErrors(s));
  }

  lemma {:induction false} OnlyStateKinds(r: seq<ValidationError>)
    requires forall e | e in r :: e.kind == StateTypeMismatch || e.kind == StateLazyMismatch
    ensures |r| == CountKind(r, StateTypeMismatch) + CountKind(r, StateLazyMismatch)
    decreases |r|
  {
    if r != [] {
      assert r[0] in r;
      assert forall e | e in r[1..] :: e in r;
      OnlyStateKinds(r[1..]);
    }
  }

  /** The same-named pairs i < j that disagree as `kind` reports and whose
      later value is `element`. */
  ghost function ConflictsAt(s: seq<StateParamModel>, kind: ErrorKind, element: Element): set<(int, int)>
  {
    set a, b | 0 <= a < b < |s| && s[a].name == s[b].name && Differs(s[a], s[b], kind) && s[b].element == element
      :: (a, b)
  }

  /** Clash restricted to pairs whose later value is `element`. */
  ghost function ClashAt(s: seq<StateParamModel>, kind: ErrorKind, element: Element): (int, int) -> bool
  {
    (a: int, b: int) =>
      0 <= a < b < |s| && s[a].name == s[b].name && Differs(s[a], s[b], kind) && s[b].element == element
  }

  /** How often x occurs in r. */
  function Occurrences<T(==)>(r: seq<T>, x: T): nat
  {
    if r == [] then 0 else (if r[0] == x then 1 else 0) + Occurrences(r[1..], x)
  }

  lemma {:induction false} OccurrencesAppend<T>(a: seq<T>, b: seq<T>, x: T)
    ensures Occurrences(a + b, x) == Occurrences(a, x) + Occurrences(b, x)
    decreases |a|
  {
    if a == [] {
      assert a + b == b;
    } else {
      assert (a + b)[1..] == a[1..] + b;
      OccurrencesAppend(a[1..], b, x);
    }
  }

  lemma {:induction false} OccurrencesIsMultiplicity<T>(r: seq<T>, x: T)
    ensures Occurrences(r, x) == multiset(r)[x]
    decreases |r|
  {
    if r != [] {
      assert r == [r[0]] + r[1..];
      OccurrencesIsMultiplicity(r[1..], x);
    }
  }

  /** How often one pair reports a given error. */
  lemma PairOccurrences(first: StateParamModel, second: StateParamModel, kind: ErrorKind, element: Element)
    ensures Occurrences(PairErrors(first, second), ValidationError(element, kind))
            == if first.name == second.name && Differs(first, second, kind) && second.element == element then 1 else 0
  {
    if first.name == second.name {
      var t := if Box(first.typ) != Box(second.typ) then [ValidationError(second.element, StateTypeMismatch)] else [];
      var l := if first.canUpdateLazily != second.canUpdateLazily then [ValidationError(second.element, StateLazyMismatch)] else [];
      assert PairErrors(first, second) == t + l;
      OccurrencesAppend(t, l, ValidationError(element, kind));
    }
  }

  lemma InnerStepAt(s: seq<StateParamModel>, i: nat, j: nat, kind: ErrorKind, element: Element)
    requires i < j < |s|
    ensures Occurrences(InnerErrors(s, i, j), ValidationError(element, kind))
            == (if ClashAt(s, kind, element)(i, j) then 1 else 0)
               + Occurrences(InnerErrors(s, i, j + 1), ValidationError(element, kind))
  {
    assert InnerErrors(s, i, j) == PairErrors(s[i], s[j]) + InnerErrors(s, i, j + 1);
    OccurrencesAppend(PairErrors(s[i], s[j]), InnerErrors(s, i, j + 1), ValidationError(element, kind));
    PairOccurrences(s[i], s[j], kind, element);
  }

  lemma {:induction false} InnerOccurrences(s: seq<StateParamModel>, i: nat, j: nat, kind: ErrorKind, element: Element)
    requires i < j <= |s|
    ensures Occurrences(InnerErrors(s, i, j), ValidationError(element, kind)) == Tally(ClashAt(s, kind, element), |s|, i, j)
    decreases |s| - j
  {
    if j < |s| {
      InnerOccurrences(s, i, j + 1, kind, element);
      InnerStepAt(s, i, j, kind, element);
    }
  }

  lemma {:induction false} OuterOccurrences(s: seq<StateParamModel>, i: nat, kind: ErrorKind, element: Element)
    ensures Occurrences(OuterErrors(s, i), ValidationError(element, kind)) == |Grid(ClashAt(s, kind, element), |s|, i)|
    decreases |s| - i
  {
    if i + 1 >= |s| {
      assert Grid(ClashAt(s, kind, element), |s|, i) == {};
    } else {
      assert OuterErrors(s, i) == InnerErrors(s, i, i + 1) + OuterErrors(s, i + 1);
      OccurrencesAppend(InnerErrors(s, i, i + 1), OuterErrors(s, i + 1), ValidationError(element, kind));
      InnerOccurrences(s, i, i + 1, kind, element);
      RowCard(ClashAt(s, kind, element), |s|, i, i + 1);
      OuterOccurrences(s, i + 1, kind, element);
      GridSplit(ClashAt(s, kind, element), |s|, i);
    }
  }

  /** Each reported error is one conflicting pair: an error of a given kind
      on a given element occurs exactly as often as there are earlier
      same-named values that disagree with that element in that way. */
  lemma StateValueErrorsOccurrences(s: seq<StateParamModel>, kind: ErrorKind, element: Element)
    ensures multiset(StateValueErrors(s))[ValidationError(element, kind)] == |ConflictsAt(s, kind, element)|
  {
    OuterOccurrences(s, 0, kind, element);
    OccurrencesIsMultiplicity(OuterErrors(s, 0), ValidationError(element, kind));
    ConflictsAtAsGrid(s, kind, element);
  }

  lemma ConflictsAtAsGrid(s: seq<StateParamModel>, kind: ErrorKind, element: Element)
    ensures ConflictsAt(s, kind, element) == Grid(ClashAt(s, kind, element), |s|, 0)
  {
    forall x | x in Grid(ClashAt(s, kind, element), |s|, 0) ensures x in ConflictsAt(s, kind, element) {
      var a, b :| 0 <= a < b < |s| && ClashAt(s, kind, element)(a, b) && x == (a, b);
    }
  }

  /** Types are compared boxed: a primitive state value and a same-named
      state value of its wrapper class never produce a type mismatch. */
  lemma PrimitiveAndWrapperNeverMismatch(s: seq<StateParamModel>, i: int, j: int, p: Primitive)
    requires 0 <= i < j < |s|
    requires (s[i].typ == PrimitiveType(p) && s[j].typ == ClassType(BoxedName(p)))
             || (s[i].typ == ClassType(BoxedName(p)) && s[j].typ == PrimitiveType(p))
    ensures !Conflict(s, i, j, ValidationError(s[j].element, StateTypeMismatch))
  {
  }

  // ---------------------------------------------------------------------
  // validateOnUpdateStateMethod(s)
  // ---------------------------------------------------------------------

  function PropNames(props: seq<PropModel>): (r: seq<string>)
    ensures |r| == |props| && forall k | 0 <= k < |props| :: r[k] == props[k].name
  {
    if props == [] then [] else [props[0].name] + PropNames(props[1..])
  }

  function StateNames(s: seq<StateParamModel>): (r: seq<string>)
    ensures |r| == |s| && forall k | 0 <= k < |s| :: r[k] == s[k].name
  {
    if s == [] then [] else [s[0].name] + StateNames(s[1..])
  }

  /** Check #1 against the props: one error per prop with the parameter's
      name. */
  function PropClashErrors(p: MethodParamModel, props: seq<PropModel>): (r: seq<ValidationError>)
    ensures |r| == multiset(PropNames(props))[p.name]
    ensures forall e | e in r :: e == ValidationError(p.element, ParamNamedLikeProp)
  {
    if props == [] then []
    else
      (if p.name == props[0].name then [ValidationError(p.element, ParamNamedLikeProp)] else [])
      + PropClashErrors(p, props[1..])
  }

  /** Check #1 against the state values: one error per state value with the
      parameter's name. */
  function StateClashErrors(p: MethodParamModel, s: seq<StateParamModel>): (r: seq<ValidationError>)
    ensures |r| == multiset(StateNames(s))[p.name]
    ensures forall e | e in r :: e == ValidationError(p.element, ParamNamedLikeState)
  {
    if s == [] then []
    else
      (if p.name == s[0].name then [ValidationError(p.element, ParamNamedLikeState)] else [])
      + StateClashErrors(p, s[1..])
  }

  /** definesStateValue, scanning from index k: some state value has the
      name and, after boxing, the type. */
  function DefinesStateValueFrom(s: seq<StateParamModel>, name: string, t: TypeName, k: nat): (r: bool)
    requires k <= |s|
    ensures r <==> exists i | k <= i < |s| :: s[i].name == name && Box(s[i].typ) == Box(t)
    decreases |s| - k
  {
    if k == |s| then false
    else if s[k].name == name && Box(s[k].typ) == Box(t) then true
    else DefinesStateValueFrom(s, name, t, k + 1)
  }

  function DefinesStateValue(m: SpecModel, name: string, t: TypeName): bool
  {
    DefinesStateValueFrom(m.stateValues, name, t, 0)
  }

  /** The parameter's type is `StateValue<...>`. */
  predicate IsStateValueType(t: TypeName)
  {
    t.ParameterizedType? && t.rawType == StateValueClass
  }

  /** The errors one parameter of update-state method `u` contributes. */
  function ParamErrors(m: SpecModel, u: UpdateStateMethod, p: MethodParamModel): (r: seq<ValidationError>)
    ensures IsParamAnnotated(p) ==>
              |r| == multiset(PropNames(m.props))[p.name] + multiset(StateNames(m.stateValues))[p.name]
    ensures !IsParamAnnotated(p) ==> |r| <= 1
    ensures forall e | e in r :: e.element == p.element
  {
    if IsParamAnnotated(p) then
      PropClashErrors(p, m.props) + StateClashErrors(p, m.stateValues)
    else if !IsStateValueType(p.typ) then
      [ValidationError(p.element, NotAStateValue(p.name, p.typ))]
    else if |p.typ.typeArguments| != 1 || p.typ.typeArguments[0].WildcardType? then
      [ValidationError(p.element, MissingTypeArgument(p.name, u.name))]
    else if !DefinesStateValue(m, p.name, p.typ.typeArguments[0]) then
      [ValidationError(p.element, NoMatchingState)]
    else
      []
  }

  /** The three rules of an @OnUpdateState parameter, stated directly. */
  ghost predicate WellFormedParam(m: SpecModel, p: MethodParamModel)
  {
    if IsParamAnnotated(p) then
      && (forall k | 0 <= k < |m.props| :: m.props[k].name != p.name)
      && (forall k | 0 <= k < |m.stateValues| :: m.stateValues[k].name != p.name)
    else
      && IsStateValueType(p.typ)
      && |p.typ.typeArguments| == 1
      && !p.typ.typeArguments[0].WildcardType?
      && exists k | 0 <= k < |m.stateValues| ::
           m.stateValues[k].name == p.name && Box(m.stateValues[k].typ) == Box(p.typ.typeArguments[0])
  }

  lemma PropNameCountZero(props: seq<PropModel>, name: string)
    ensures multiset(PropNames(props))[name] == 0 <==> forall k | 0 <= k < |props| :: props[k].name != name
  {
    var pn := PropNames(props);
    if multiset(pn)[name] != 0 {
      assert name in multiset(pn);
      var k :| 0 <= k < |pn| && pn[k] == name;
      assert props[k].name == name;
    }
  }

  lemma StateNameCountZero(s: seq<StateParamModel>, name: string)
    ensures multiset(StateNames(s))[name] == 0 <==> forall k | 0 <= k < |s| :: s[k].name != name
  {
    var sn := StateNames(s);
    if multiset(sn)[name] != 0 {
      assert name in multiset(sn);
      var k :| 0 <= k < |sn| && sn[k] == name;
      assert s[k].name == name;
    }
  }

  /** A parameter yields no error iff it is well-formed. */
  lemma ParamErrorsEmptyIff(m: SpecModel, u: UpdateStateMethod, p: MethodParamModel)
    ensures ParamErrors(m, u, p) == [] <==> WellFormedParam(m, p)
  {
    if IsParamAnnotated(p) {
      PropNameCountZero(m.props, p.name);
      StateNameCountZero(m.stateValues, p.name);
      assert |ParamErrors(m, u, p)| == multiset(PropNames(m.props))[p.name] + multiset(StateNames(m.stateValues))[p.name];
    }
  }

  /** Concatenating a run of x's and a run of y's puts every x before
      every y. */
  lemma RunsConcat<T>(a: seq<T>, b: seq<T>, x: T, y: T)
    requires forall e | e in a :: e == x
    requires forall e | e in b :: e == y
    ensures forall i | 0 <= i < |a| :: (a + b)[i] == x
    ensures forall i | |a| <= i < |a + b| :: (a + b)[i] == y
  {
    forall i | 0 <= i < |a|
      ensures (a + b)[i] == x
    {
      assert a[i] in a;
    }
    forall i | |a| <= i < |a + b|
      ensures (a + b)[i] == y
    {
      assert b[i - |a|] in b;
    }
  }

  /** A @Param parameter's errors are its prop clashes, one per same-named
      prop, followed by its state clashes, one per same-named state value. */
  lemma ParamClashOrder(m: SpecModel, u: UpdateStateMethod, p: MethodParamModel)
    requires IsParamAnnotated(p)
    ensures var r := ParamErrors(m, u, p);
            var k := multiset(PropNames(m.props))[p.name];
            && k <= |r|
            && (forall i | 0 <= i < k :: r[i] == ValidationError(p.element, ParamNamedLikeProp))
            && (forall i | k <= i < |r| :: r[i] == ValidationError(p.element, ParamNamedLikeState))
  {
    var a := PropClashErrors(p, m.props);
    var b := StateClashErrors(p, m.stateValues);
    RunsConcat(a, b, ValidationError(p.element, ParamNamedLikeProp), ValidationError(p.element, ParamNamedLikeState));
    assert ParamErrors(m, u, p) == a + b;
  }

  /** A non-@Param parameter gets the first failing check's error, in the
      order: not a StateValue, then no single non-wildcard type argument,
      then no matching state value. */
  lemma NonParamErrorOrder(m: SpecModel, u: UpdateStateMethod, p: MethodParamModel)
    requires !IsParamAnnotated(p)
    ensures !IsStateValueType(p.typ) ==>
              ParamErrors(m, u, p) == [ValidationError(p.element, NotAStateValue(p.name, p.typ))]
    ensures IsStateValueType(p.typ) && (|p.typ.typeArguments| != 1 || p.typ.typeArguments[0].WildcardType?) ==>
              ParamErrors(m, u, p) == [ValidationError(p.element, MissingTypeArgument(p.name, u.name))]
    ensures IsStateValueType(p.typ) && |p.typ.typeArguments| == 1 && !p.typ.typeArguments[0].WildcardType? ==>
              (ParamErrors(m, u, p) == [ValidationError(p.element, NoMatchingState)]
               <==> !(exists k | 0 <= k < |m.stateValues| ::
                        m.stateValues[k].name == p.name && Box(m.stateValues[k].typ) == Box(p.typ.typeArguments[0])))
  {
  }

  /** f applied to each element in order, the results concatenated. */
  function FlatMap<T, E>(f: T -> seq<E>, xs: seq<T>): seq<E>
  {
    if xs == [] then [] else f(xs[0]) + FlatMap(f, xs[1..])
  }

  lemma {:induction false} FlatMapEmptyIff<T, E>(f: T -> seq<E>, xs: seq<T>)
    ensures FlatMap(f, xs) == [] <==> forall q | 0 <= q < |xs| :: f(xs[q]) == []
    decreases |xs|
  {
    if xs != [] {
      var tail := xs[1..];
      FlatMapEmptyIff(f, tail);
      assert |FlatMap(f, xs)| == |f(xs[0])| + |FlatMap(f, tail)|;
      if FlatMap(f, xs) == [] {
        forall q | 0 <= q < |xs| ensures f(xs[q]) == [] {
          if q > 0 { assert xs[q] == tail[q - 1]; }
        }
      } else if f(xs[0]) == [] {
        var q :| 0 <= q < |tail| && f(tail[q]) != [];
        assert tail[q] == xs[q + 1];
      }
    }
  }

  /** The parameter loop of validateOnUpdateStateMethod. */
  function ParamsErrors(m: SpecModel, u: UpdateStateMethod, ps: seq<MethodParamModel>): seq<ValidationError>
  {
    FlatMap((p: MethodParamModel) => ParamErrors(m, u, p), ps)
  }

  /** The parameter loop reports nothing iff no parameter does. */
  lemma ParamsErrorsEmptyIff(m: SpecModel, u: UpdateStateMethod, ps: seq<MethodParamModel>)
    ensures ParamsErrors(m, u, ps) == [] <==> forall q | 0 <= q < |ps| :: ParamErrors(m, u, ps[q]) == []
  {
    FlatMapEmptyIff((p: MethodParamModel) => ParamErrors(m, u, p), ps);
  }

  /** validateOnUpdateStateMethod: the method-is-static errors (a check
      outside this model, passed in as `staticCheck`) followed by every
      parameter's errors in parameter order. */
  function MethodErrors(
    m: SpecModel,
    staticCheck: (SpecModel, UpdateStateMethod) -> seq<ValidationError>,
    u: UpdateStateMethod): (r: seq<ValidationError>)
    ensures |r| >= |staticCheck(m, u)| && r[..|staticCheck(m, u)|] == staticCheck(m, u)
  {
    staticCheck(m, u) + ParamsErrors(m, u, u.methodParams)
  }

  /** An update-state method is well-formed: the static check passes and
      every parameter obeys the three rules. */
  ghost predicate WellFormedMethod(
    m: SpecModel,
    staticCheck: (SpecModel, UpdateStateMethod) -> seq<ValidationError>,
    u: UpdateStateMethod)
  {
    && staticCheck(m, u) == []
    && forall q | 0 <= q < |u.methodParams| :: WellFormedParam(m, u.methodParams[q])
  }

  /** The javadoc promise: an empty list means the method is well-formed. */
  lemma MethodErrorsEmptyIff(
    m: SpecModel,
    staticCheck: (SpecModel, UpdateStateMethod) -> seq<ValidationError>,
    u: UpdateStateMethod)
    ensures MethodErrors(m, staticCheck, u) == [] <==> WellFormedMethod(m, staticCheck, u)
  {
    ParamsErrorsEmptyIff(m, u, u.methodParams);
    forall q | 0 <= q < |u.methodParams| ensures ParamErrors(m, u, u.methodParams[q]) == [] <==> WellFormedParam(m, u.methodParams[q]) {
      ParamErrorsEmptyIff(m, u, u.methodParams[q]);
    }
  }

  /** validateOnUpdateStateMethods: per-method results, in method order. */
  function UpdateMethodsErrors(
    m: SpecModel,
    staticCheck: (SpecModel, UpdateStateMethod) -> seq<ValidationError>,
    us: seq<UpdateStateMethod>): seq<ValidationError>
  {
    if us == [] then [] else MethodErrors(m, staticCheck, us[0]) + UpdateMethodsErrors(m, staticCheck, us[1..])
  }

  /** The method loop distributes over concatenation of method lists. */
  lemma {:induction false} UpdateMethodsErrorsAppend(
    m: SpecModel,
    staticCheck: (SpecModel, UpdateStateMethod) -> seq<ValidationError>,
    a: seq<UpdateStateMethod>,
    b: seq<UpdateStateMethod>)
    ensures UpdateMethodsErrors(m, staticCheck, a + b)
            == UpdateMethodsErrors(m, staticCheck, a) + UpdateMethodsErrors(m, staticCheck, b)
    decreases |a|
  {
    if a == [] {
      assert a + b == b;
    } else {
      assert (a + b)[1..] == a[1..] + b;
      UpdateMethodsErrorsAppend(m, staticCheck, a[1..], b);
    }
  }

  lemma {:induction false} UpdateMethodsErrorsEmptyIff(
    m: SpecModel,
    staticCheck: (SpecModel, UpdateStateMethod) -> seq<ValidationError>,
    us: seq<UpdateStateMethod>)
    ensures UpdateMethodsErrors(m, staticCheck, us) == []
            <==> forall k | 0 <= k < |us| :: WellFormedMethod(m, staticCheck, us[k])
    decreases |us|
  {
    if us != [] {
      var tail := us[1..];
      MethodErrorsEmptyIff(m, staticCheck, us[0]);
      UpdateMethodsErrorsEmptyIff(m, staticCheck, tail);
      if UpdateMethodsErrors(m, staticCheck, us) == [] {
        forall k | 0 <= k < |us| ensures WellFormedMethod(m, staticCheck, us[k]) {
          if k > 0 { assert us[k] == tail[k - 1]; }
        }
      } else if MethodErrors(m, staticCheck, us[0]) == [] {
        var k :| 0 <= k < |tail| && !WellFormedMethod(m, staticCheck, tail[k]);
        assert tail[k] == us[k + 1];
      }
    }
  }

  // ---------------------------------------------------------------------
  // validate
  // ---------------------------------------------------------------------

  /** validate: the state-value errors, then the update-state method errors. */
  function Validate(
    m: SpecModel,
    staticCheck: (SpecModel, UpdateStateMethod) -> seq<ValidationError>): seq<ValidationError>
  {
    StateValueErrors(m.stateValues) + UpdateMethodsErrors(m, staticCheck, m.updateStateMethods)
  }

  /** The whole spec is well-formed as far as state is concerned. */
  ghost predicate WellFormedSpec(
    m: SpecModel,
    staticCheck: (SpecModel, UpdateStateMethod) -> seq<ValidationError>)
  {
    && StateValuesConsistent(m.stateValues)
    && forall k | 0 <= k < |m.updateStateMethods| :: WellFormedMethod(m, staticCheck, m.updateStateMethods[k])
  }

  /** validate returns no error iff the spec is well-formed. */
  lemma ValidateEmptyIff(
    m: SpecModel,
    staticCheck: (SpecModel, UpdateStateMethod) -> seq<ValidationError>)
    ensures Validate(m, staticCheck) == [] <==> WellFormedSpec(m, staticCheck)
  {
    StateValueErrorsEmptyIff(m.stateValues);
    UpdateMethodsErrorsEmptyIff(m, staticCheck, m.updateStateMethods);
  }

  lemma ValidatePrefixIsStateErrors(
    m: SpecModel,
    staticCheck: (SpecModel, UpdateStateMethod) -> seq<ValidationError>,
    k: nat)
    requires k < |StateValueErrors(m.stateValues)|
    ensures k < |Validate(m, staticCheck)|
    ensures ReportedConflict(m.stateValues, Validate(m, staticCheck)[k])
  {
    var sv := StateValueErrors(m.stateValues);
    assert Validate(m, staticCheck)[k] == sv[k];
    assert sv[k] in sv;
    StateValueErrorsMembership(m.stateValues, sv[k]);
  }

  /** The state-value errors come first: the first |Conflicts| errors of
      validate are pairwise state-value errors, the rest are exactly the
      update-state method errors. */
  lemma ValidateOrder(
    m: SpecModel,
    staticCheck: (SpecModel, UpdateStateMethod) -> seq<ValidationError>)
    ensures var n := |Conflicts(m.stateValues, StateTypeMismatch)| + |Conflicts(m.stateValues, StateLazyMismatch)|;
            && n <= |Validate(m, staticCheck)|
            && (forall k | 0 <= k < n :: ReportedConflict(m.stateValues, Validate(m, staticCheck)[k]))
            && Validate(m, staticCheck)[n..] == UpdateMethodsErrors(m, staticCheck, m.updateStateMethods)
  {
    var sv := StateValueErrors(m.stateValues);
    StateValueErrorsCount(m.stateValues);
    var n := |Conflicts(m.stateValues, StateTypeMismatch)| + |Conflicts(m.stateValues, StateLazyMismatch)|;
    assert n == |sv|;
    forall k | 0 <= k < n ensures ReportedConflict(m.stateValues, Validate(m, staticCheck)[k]) {
      ValidatePrefixIsStateErrors(m, staticCheck, k);
    }
    assert Validate(m, staticCheck)[n..] == UpdateMethodsErrors(m, staticCheck, m.updateStateMethods);
  }

  // ---------------------------------------------------------------------
  // Worked examples
  // ---------------------------------------------------------------------

  /** An `int count` and an `Integer count` with the same laziness agree
      once boxed, so no error. */
  lemma PrimitiveAndBoxedStateAgree()
    ensures StateValueErrors([
              StateParamModel("count", PrimitiveType(Int), false, 1),
              StateParamModel("count", ClassType("java.lang.Integer"), false, 2)]) == []
  {
  }

  /** Three state values named `x` with three different types: every pair
      reports, so the third value is blamed twice. */
  lemma RepeatedNameReportsEveryPair()
    ensures StateValueErrors([
              StateParamModel("x", PrimitiveType(Int), false, 1),
              StateParamModel("x", PrimitiveType(Long), false, 2),
              StateParamModel("x", ClassType("java.lang.String"), true, 3)])
            == [ValidationError(2, StateTypeMismatch),
                ValidationError(3, StateTypeMismatch),
                ValidationError(3, StateLazyMismatch),
                ValidationError(3, StateTypeMismatch),
                ValidationError(3, StateLazyMismatch)]
  {
  }
}

=== FILE: text_drawable.dfy ===
/**
 The discrete state of Litho's TextDrawable, the Drawable that mounts text
 content, and its non-graphical transitions: mount and unmount, the
 highlighted selection range and its cached path, and touch dispatch to
 clickable and long-clickable spans and to the text-offset listener.

 Every Java field that matters to those transitions is a field of the
 immutable DrawableState record; every method is a pure function from a
 state (and its arguments) to the next state and what it hands to the
 outside world.
 */
module TextDrawable {
  import opened Wrappers
  import opened AndroidText

  /** A highlight path computed by the layout with identity `layout` for the
      range [start, end). */
  datatype Path = Path(layout: nat, start: int, end: int)

  /** A ColorStateList: an identity and the colour it uses by default. */
  datatype ColorStateList = ColorStateList(id: nat, defaultColor: int)

  /** An ImageSpan whose drawable the text hosts. */
  datatype ImageSpan = ImageSpan(id: nat)

  /** Identity of a TextOffsetOnTouchListener. */
  type ListenerId = nat

  /** The fields of a TextDrawable. `bounds` is the Drawable's bounds (set
      by the host); `hasLongClickHandler` says whether the long-click
      Handler has been created; `longClickRunnable` names the span of the
      pending long-click callback, if any. */
  datatype DrawableState = DrawableState(
    bounds: Rect,
    layout: Option<Layout>,
    layoutTranslationY: real,
    shouldHandleTouch: bool,
    text: Option<Text>,
    colorStateList: Option<ColorStateList>,
    userColor: int,
    highlightColor: int,
    clickableSpans: Option<seq<Span>>,
    imageSpans: Option<seq<ImageSpan>>,
    selectionStart: int,
    selectionEnd: int,
    selectionPath: Option<Path>,
    selectionPathNeedsUpdate: bool,
    highlightPaintColor: Option<int>,
    textOffsetListener: Option<ListenerId>,
    clickableSpanExpandedOffset: real,
    longClickActivated: bool,
    hasLongClickHandler: bool,
    longClickRunnable: Option<Span>)

  /** What a touch hands to code outside the drawable. */
  datatype Effect =
      /** ClickableSpan.onClick */
    | SpanClicked(span: Span)
      /** TextOffsetOnTouchListener.textOffsetOnTouch */
    | TextOffsetTouched(offset: int)

  /** The state after a touch, whether the touch was consumed, and the
      callbacks it fired in order. */
  datatype TouchResult = TouchResult(drawable: DrawableState, consumed: bool, effects: seq<Effect>)

  /** getSelectionPath's answer and the state after it (the cache may have
      been refreshed). */
  datatype PathResult = PathResult(path: Option<Path>, drawable: DrawableState)

  // ---------------------------------------------------------------------
  // Invariants
  // ---------------------------------------------------------------------

  /** The fields a touch dereferences are set whenever touches can reach
      them: clickable-span handling needs layout, text and the span array;
      the text-offset listener needs layout and text. */
  predicate Touchable(d: DrawableState)
  {
    && (d.shouldHandleTouch ==> d.layout.Some? && d.text.Some? && d.clickableSpans.Some?)
    && (d.textOffsetListener.Some? ==> d.layout.Some? && d.text.Some?)
  }

  /** While a layout is mounted, a non-empty selection either awaits
      recomputation of its path or has cached the path that this layout
      computes for it. */
  predicate SelectionPathCached(d: DrawableState)
  {
    d.layout.Some? && d.selectionStart != d.selectionEnd && !d.selectionPathNeedsUpdate ==>
      d.selectionPath == Some(Path(d.layout.value.id, d.selectionStart, d.selectionEnd))
  }

  /** The invariant that construction, the corrected mount, unmount,
      selection and touch handling keep. The as-written mount can break
      its path-cache part (MountReusesStalePath). */
  predicate Valid(d: DrawableState)
  {
    && Touchable(d)
    && SelectionPathCached(d)
    && (d.shouldHandleTouch <==> d.clickableSpans.Some? && |d.clickableSpans.value| > 0)
    && (ContainsLongClickableSpan(d.clickableSpans) ==> d.hasLongClickHandler)
  }

  /** A freshly constructed TextDrawable with the given bounds. */
  function NewDrawable(bounds: Rect): (d: DrawableState)
    ensures Valid(d)
    ensures d.text.None? && d.layout.None? && !d.shouldHandleTouch && d.selectionStart == d.selectionEnd
  {
    DrawableState(
      bounds, None, 0.0, false, None, None, 0, 0, None, None,
      0, 0, None, false, None, None, 0.0, false, false, None)
  }

  // ---------------------------------------------------------------------
  // Simple queries
  // ---------------------------------------------------------------------

  /** isStateful: a colour state list is in use. */
  predicate IsStateful(d: DrawableState)
  {
    d.colorStateList.Some?
  }

  /** getTextItems: the mounted text as a one-element list, or nothing. */
  function GetTextItems(d: DrawableState): (r: seq<Text>)
    ensures |r| <= 1
    ensures r == [] <==> d.text.None?
    ensures forall t | t in r :: d.text == Some(t)
  {
    if d.text.Some? then [d.text.value] else []
  }

  function ContainsLongClickableFrom(spans: seq<Span>, k: nat): (r: bool)
    requires k <= |spans|
    ensures r <==> exists i | k <= i < |spans| :: spans[i].LongClickableSpan?
    decreases |spans| - k
  {
    if k == |spans| then false
    else if spans[k].LongClickableSpan? then true
    else ContainsLongClickableFrom(spans, k + 1)
  }

  /** containsLongClickableSpan: false for a null array, otherwise whether
      some element is a LongClickableSpan. */
  function ContainsLongClickableSpan(spans: Option<seq<Span>>): (r: bool)
    ensures r <==> spans.Some? && exists i | 0 <= i < |spans.value| :: spans.value[i].LongClickableSpan?
  {
    spans.Some? && ContainsLongClickableFrom(spans.value, 0)
  }

  /** highlightOffsetsValid. */
  predicate HighlightOffsetsValid(text: Text, highlightStart: int, highlightEnd: int)
  {
    highlightStart >= 0 && highlightEnd <= text.length && highlightStart < highlightEnd
  }

  // ---------------------------------------------------------------------
  // Selection
  // ---------------------------------------------------------------------

  /** setSelection(start, end): ignored when the highlight colour is fully
      transparent or the range is unchanged; otherwise stores the range,
      sets the highlight paint colour and marks the path stale. */
  function SetSelection(d: DrawableState, start: int, end: int): (r: DrawableState)
    ensures Alpha(d.highlightColor) == 0 || (d.selectionStart == start && d.selectionEnd == end) ==> r == d
    ensures Alpha(d.highlightColor) != 0 ==> r.selectionStart == start && r.selectionEnd == end
    ensures Alpha(d.highlightColor) != 0 && (d.selectionStart != start || d.selectionEnd != end) ==>
              r.selectionPathNeedsUpdate && r.highlightPaintColor == Some(d.highlightColor)
    ensures r == d.(selectionStart := r.selectionStart, selectionEnd := r.selectionEnd,
                    selectionPathNeedsUpdate := r.selectionPathNeedsUpdate,
                    highlightPaintColor := r.highlightPaintColor)
    ensures SelectionPathCached(d) ==> SelectionPathCached(r)
  {
    if Alpha(d.highlightColor) == 0 || (d.selectionStart == start && d.selectionEnd == end) then
      d
    else
      d.(selectionStart := start, selectionEnd := end,
         highlightPaintColor := Some(d.highlightColor), selectionPathNeedsUpdate := true)
  }

  /** clearSelection: the empty range (0, 0). */
  function ClearSelection(d: DrawableState): (r: DrawableState)
    ensures Alpha(d.highlightColor) != 0 ==> r.selectionStart == 0 && r.selectionEnd == 0
    ensures Alpha(d.highlightColor) == 0 ==> r == d
  {
    SetSelection(d, 0, 0)
  }

  /** setSelection(span): the span's range in the text. */
  function SetSelectionToSpan(d: DrawableState, span: Span): (r: DrawableState)
    requires d.text.Some?
    ensures Alpha(d.highlightColor) != 0 ==>
              r.selectionStart == d.text.value.spanStart(span) && r.selectionEnd == d.text.value.spanEnd(span)
  {
    SetSelection(d, d.text.value.spanStart(span), d.text.value.spanEnd(span))
  }

  /** getSelectionPath, called from draw once a layout is present: none for
      an empty range or a transparent highlight; otherwise the cached path,
      recomputed first when stale. */
  function GetSelectionPath(d: DrawableState): (r: PathResult)
    requires d.layout.Some?
    ensures d.selectionStart == d.selectionEnd || Alpha(d.highlightColor) == 0 ==> r == PathResult(None, d)
    ensures SelectionPathCached(d) && d.selectionStart != d.selectionEnd && Alpha(d.highlightColor) != 0 ==>
              && r.path == Some(Path(d.layout.value.id, d.selectionStart, d.selectionEnd))
              && !r.drawable.selectionPathNeedsUpdate
    ensures SelectionPathCached(d) ==> SelectionPathCached(r.drawable)
    ensures r.drawable == d.(selectionPath := r.drawable.selectionPath,
                             selectionPathNeedsUpdate := r.drawable.selectionPathNeedsUpdate)
  {
    if d.selectionStart == d.selectionEnd then PathResult(None, d)
    else if Alpha(d.highlightColor) == 0 then PathResult(None, d)
    else if d.selectionPathNeedsUpdate then
      var p := Path(d.layout.value.id, d.selectionStart, d.selectionEnd);
      PathResult(Some(p), d.(selectionPath := Some(p), selectionPathNeedsUpdate := false))
    else PathResult(d.selectionPath, d)
  }

  // ---------------------------------------------------------------------
  // Mount and unmount
  // ---------------------------------------------------------------------

  /** The full mount as written: stores the content, derives
      shouldHandleTouch from the span array, creates the long-click handler
      on first need, picks the colour source (an explicit non-zero userColor
      wins over any state list; otherwise the given list or `defaultColors`,
      the text component's default list), then sets the highlight to the
      given offsets when they are valid and clears it otherwise. A range
      equal to the previous one makes setSelection return early, so the
      path cached for the previous layout and the previous paint colour
      are kept. */
  function MountAsWritten(
    d: DrawableState,
    text: Text,
    layout: Layout,
    layoutTranslationY: real,
    colorStateList: Option<ColorStateList>,
    userColor: int,
    highlightColor: int,
    clickableSpans: Option<seq<Span>>,
    imageSpans: Option<seq<ImageSpan>>,
    textOffsetListener: Option<ListenerId>,
    highlightStartOffset: int,
    highlightEndOffset: int,
    clickableSpanExpandedOffset: real,
    defaultColors: ColorStateList): (r: DrawableState)
    ensures r.text == Some(text) && r.layout == Some(layout)
    ensures GetTextItems(r) == [text]
    ensures r.layoutTranslationY == layoutTranslationY
    ensures r.clickableSpans == clickableSpans && r.imageSpans == imageSpans
    ensures r.textOffsetListener == textOffsetListener
    ensures r.highlightColor == highlightColor
    ensures r.clickableSpanExpandedOffset == clickableSpanExpandedOffset
    ensures r.shouldHandleTouch <==> clickableSpans.Some? && |clickableSpans.value| > 0
    ensures r.hasLongClickHandler <==> d.hasLongClickHandler || ContainsLongClickableSpan(clickableSpans)
    ensures userColor != 0 ==> !IsStateful(r) && r.userColor == userColor
    ensures userColor == 0 && colorStateList.Some? ==>
              r.colorStateList == colorStateList && r.userColor == colorStateList.value.defaultColor
    ensures userColor == 0 && colorStateList.None? ==>
              r.colorStateList == Some(defaultColors) && r.userColor == defaultColors.defaultColor
    ensures Alpha(highlightColor) != 0 && HighlightOffsetsValid(text, highlightStartOffset, highlightEndOffset) ==>
              r.selectionStart == highlightStartOffset && r.selectionEnd == highlightEndOffset
    ensures Alpha(highlightColor) != 0 && !HighlightOffsetsValid(text, highlightStartOffset, highlightEndOffset) ==>
              r.selectionStart == 0 && r.selectionEnd == 0
    ensures Alpha(highlightColor) == 0 ==>
              r.selectionStart == d.selectionStart && r.selectionEnd == d.selectionEnd
    ensures r.bounds == d.bounds && r.longClickActivated == d.longClickActivated
    ensures r.longClickRunnable == d.longClickRunnable
  {
    var hasHandler := d.hasLongClickHandler || ContainsLongClickableSpan(clickableSpans);
    var colors := if userColor != 0 then None
                  else Some(if colorStateList.Some? then colorStateList.value else defaultColors);
    var content := d.(
      layout := Some(layout),
      layoutTranslationY := layoutTranslationY,
      text := Some(text),
      clickableSpans := clickableSpans,
      hasLongClickHandler := hasHandler,
      textOffsetListener := textOffsetListener,
      shouldHandleTouch := clickableSpans.Some? && |clickableSpans.value| > 0,
      highlightColor := highlightColor,
      clickableSpanExpandedOffset := clickableSpanExpandedOffset,
      colorStateList := colors,
      userColor := if userColor != 0 then userColor else colors.value.defaultColor);
    var selected :=
      if HighlightOffsetsValid(text, highlightStartOffset, highlightEndOffset) then
        SetSelection(content, highlightStartOffset, highlightEndOffset)
      else
        ClearSelection(content);
    selected.(imageSpans := imageSpans)
  }

  /** With a visible highlight, valid offsets equal to the range already
      selected make the as-written mount's setSelection return early: the
      cached path, its stale flag and the paint colour are kept. */
  lemma MountSameRangeKeepsPath(
    d: DrawableState,
    text: Text,
    layout: Layout,
    layoutTranslationY: real,
    colorStateList: Option<ColorStateList>,
    userColor: int,
    highlightColor: int,
    clickableSpans: Option<seq<Span>>,
    imageSpans: Option<seq<ImageSpan>>,
    textOffsetListener: Option<ListenerId>,
    highlightStartOffset: int,
    highlightEndOffset: int,
    clickableSpanExpandedOffset: real,
    defaultColors: ColorStateList)
    requires Alpha(highlightColor) != 0 && HighlightOffsetsValid(text, highlightStartOffset, highlightEndOffset)
    requires d.selectionStart == highlightStartOffset && d.selectionEnd == highlightEndOffset
    ensures var r := MountAsWritten(d, text, layout, layoutTranslationY, colorStateList, userColor, highlightColor,
                                  clickableSpans, imageSpans, textOffsetListener, highlightStartOffset,
                                  highlightEndOffset, clickableSpanExpandedOffset, defaultColors);
            && r.selectionPath == d.selectionPath && r.selectionPathNeedsUpdate == d.selectionPathNeedsUpdate
            && r.highlightPaintColor == d.highlightPaintColor
  {
  }

  /** Remounting a different layout with the highlight range already
      selected: the as-written mount leaves the path cached for the old
      layout, and the next draw is handed that stale path, painted in the
      old paint colour whatever the new highlight colour is. */
  lemma MountReusesStalePath(
    d: DrawableState,
    text: Text,
    layout: Layout,
    layoutTranslationY: real,
    colorStateList: Option<ColorStateList>,
    userColor: int,
    highlightColor: int,
    clickableSpans: Option<seq<Span>>,
    imageSpans: Option<seq<ImageSpan>>,
    textOffsetListener: Option<ListenerId>,
    highlightStartOffset: int,
    highlightEndOffset: int,
    clickableSpanExpandedOffset: real,
    defaultColors: ColorStateList)
    requires d.layout.Some? && d.layout.value.id != layout.id
    requires SelectionPathCached(d) && !d.selectionPathNeedsUpdate
    requires Alpha(highlightColor) != 0 && HighlightOffsetsValid(text, highlightStartOffset, highlightEndOffset)
    requires d.selectionStart == highlightStartOffset && d.selectionEnd == highlightEndOffset
    ensures var r := MountAsWritten(d, text, layout, layoutTranslationY, colorStateList, userColor, highlightColor,
                 clickableSpans, imageSpans, textOffsetListener, highlightStartOffset,
                 highlightEndOffset, clickableSpanExpandedOffset, defaultColors);
            && GetSelectionPath(r).path == Some(Path(d.layout.value.id, highlightStartOffset, highlightEndOffset))
            && GetSelectionPath(r).path != Some(Path(layout.id, highlightStartOffset, highlightEndOffset))
            && !SelectionPathCached(r)
            && r.highlightColor == highlightColor && r.highlightPaintColor == d.highlightPaintColor
  {
    MountSameRangeKeepsPath(d, text, layout, layoutTranslationY, colorStateList, userColor, highlightColor,
                            clickableSpans, imageSpans, textOffsetListener, highlightStartOffset,
                            highlightEndOffset, clickableSpanExpandedOffset, defaultColors);
  }

  /** The full mount, corrected: it stores everything the as-written mount
      stores, and then marks the selection path stale and, under a visible
      highlight, gives the highlight paint the new colour, so that the next
      draw recomputes the path with the new layout and paints it in the
      new colour even when the range is unchanged. */
  function Mount(
    d: DrawableState,
    text: Text,
    layout: Layout,
    layoutTranslationY: real,
    colorStateList: Option<ColorStateList>,
    userColor: int,
    highlightColor: int,
    clickableSpans: Option<seq<Span>>,
    imageSpans: Option<seq<ImageSpan>>,
    textOffsetListener: Option<ListenerId>,
    highlightStartOffset: int,
    highlightEndOffset: int,
    clickableSpanExpandedOffset: real,
    defaultColors: ColorStateList): (r: DrawableState)
    ensures var w := MountAsWritten(d, text, layout, layoutTranslationY, colorStateList, userColor, highlightColor,
                                    clickableSpans, imageSpans, textOffsetListener, highlightStartOffset,
                                    highlightEndOffset, clickableSpanExpandedOffset, defaultColors);
            r.(selectionPathNeedsUpdate := w.selectionPathNeedsUpdate, highlightPaintColor := w.highlightPaintColor) == w
    ensures r.selectionPathNeedsUpdate
    ensures Alpha(highlightColor) != 0 ==> r.highlightPaintColor == Some(highlightColor)
    ensures Alpha(highlightColor) == 0 ==> r.highlightPaintColor == d.highlightPaintColor
  {
    var w := MountAsWritten(d, text, layout, layoutTranslationY, colorStateList, userColor, highlightColor,
                            clickableSpans, imageSpans, textOffsetListener, highlightStartOffset,
                            highlightEndOffset, clickableSpanExpandedOffset, defaultColors);
    w.(selectionPathNeedsUpdate := true,
       highlightPaintColor := if Alpha(highlightColor) != 0 then Some(highlightColor) else w.highlightPaintColor)
  }

  /** Mounting keeps the drawable's invariant. */
  lemma MountKeepsValid(
    d: DrawableState,
    text: Text,
    layout: Layout,
    layoutTranslationY: real,
    colorStateList: Option<ColorStateList>,
    userColor: int,
    highlightColor: int,
    clickableSpans: Option<seq<Span>>,
    imageSpans: Option<seq<ImageSpan>>,
    textOffsetListener: Option<ListenerId>,
    highlightStartOffset: int,
    highlightEndOffset: int,
    clickableSpanExpandedOffset: real,
    defaultColors: ColorStateList)
    requires Valid(d)
    ensures Valid(Mount(d, text, layout, layoutTranslationY, colorStateList, userColor, highlightColor,
                 clickableSpans, imageSpans, textOffsetListener, highlightStartOffset,
                 highlightEndOffset, clickableSpanExpandedOffset, defaultColors))
  {
  }

  /** Mounting with a visible highlight and valid offsets selects exactly
      that range, and the next draw gets the path the new layout computes
      for it, in the new highlight colour; the range lies inside the text. */
  lemma MountedHighlightPath(
    d: DrawableState,
    text: Text,
    layout: Layout,
    layoutTranslationY: real,
    colorStateList: Option<ColorStateList>,
    userColor: int,
    highlightColor: int,
    clickableSpans: Option<seq<Span>>,
    imageSpans: Option<seq<ImageSpan>>,
    textOffsetListener: Option<ListenerId>,
    highlightStartOffset: int,
    highlightEndOffset: int,
    clickableSpanExpandedOffset: real,
    defaultColors: ColorStateList)
    requires Alpha(highlightColor) != 0 && HighlightOffsetsValid(text, highlightStartOffset, highlightEndOffset)
    ensures var r := Mount(d, text, layout, layoutTranslationY, colorStateList, userColor, highlightColor,
                 clickableSpans, imageSpans, textOffsetListener, highlightStartOffset,
                 highlightEndOffset, clickableSpanExpandedOffset, defaultColors);
            && GetSelectionPath(r).path == Some(Path(layout.id, highlightStartOffset, highlightEndOffset))
            && r.highlightPaintColor == Some(highlightColor)
            && 0 <= highlightStartOffset < highlightEndOffset <= text.length
  {
  }

  /** mount(text, layout, userColor, clickableSpans). */
  function MountWithSpans(
    d: DrawableState,
    text: Text,
    layout: Layout,
    userColor: int,
    clickableSpans: Option<seq<Span>>,
    defaultColors: ColorStateList): (r: DrawableState)
    ensures r.text == Some(text) && r.layout == Some(layout) && r.clickableSpans == clickableSpans
    ensures r.shouldHandleTouch <==> clickableSpans.Some? && |clickableSpans.value| > 0
    ensures r.highlightColor == 0 && r.textOffsetListener.None? && r.imageSpans.None?
    ensures r.selectionStart == d.selectionStart && r.selectionEnd == d.selectionEnd
    ensures r.layoutTranslationY == 0.0 && r.clickableSpanExpandedOffset == 0.0
  {
    MountAsWritten(d, text, layout, 0.0, None, userColor, 0, clickableSpans, None, None, -1, -1, 0.0, defaultColors)
  }

  /** mount(text, layout, userColor, highlightColor). */
  function MountWithHighlight(
    d: DrawableState,
    text: Text,
    layout: Layout,
    userColor: int,
    highlightColor: int,
    defaultColors: ColorStateList): (r: DrawableState)
    ensures r.text == Some(text) && r.layout == Some(layout)
    ensures !r.shouldHandleTouch && r.clickableSpans.None? && r.textOffsetListener.None?
    ensures r.highlightColor == highlightColor
    ensures Alpha(highlightColor) != 0 ==> r.selectionStart == 0 && r.selectionEnd == 0
  {
    MountAsWritten(d, text, layout, 0.0, None, userColor, highlightColor, None, None, None, -1, -1, 0.0, defaultColors)
  }

  /** mount(text, layout, layoutTranslationY, colorStateList, userColor,
      highlightColor, clickableSpans), as written: it forwards a zero
      translation and a null colour state list, whatever it is given. */
  function MountStyled(
    d: DrawableState,
    text: Text,
    layout: Layout,
    layoutTranslationY: real,
    colorStateList: Option<ColorStateList>,
    userColor: int,
    highlightColor: int,
    clickableSpans: Option<seq<Span>>,
    defaultColors: ColorStateList): (r: DrawableState)
    ensures r.layoutTranslationY == 0.0
    ensures userColor == 0 ==> r.colorStateList == Some(defaultColors)
    ensures r.text == Some(text) && r.highlightColor == highlightColor && r.clickableSpans == clickableSpans
  {
    MountAsWritten(d, text, layout, 0.0, None, userColor, highlightColor, clickableSpans, None, None, -1, -1, 0.0, defaultColors)
  }

  /** The seven-argument overload cannot be told apart by its translation
      and colour-state-list arguments: a translation of 5 and a caller's
      own colour list are both dropped. */
  lemma MountStyledDropsStyle(
    d: DrawableState, text: Text, layout: Layout, highlightColor: int,
    clickableSpans: Option<seq<Span>>, own: ColorStateList, defaultColors: ColorStateList)
    requires own != defaultColors
    ensures MountStyled(d, text, layout, 5.0, Some(own), 0, highlightColor, clickableSpans, defaultColors)
            == MountStyled(d, text, layout, 0.0, None, 0, highlightColor, clickableSpans, defaultColors)
    ensures MountStyled(d, text, layout, 5.0, Some(own), 0, highlightColor, clickableSpans, defaultColors).layoutTranslationY != 5.0
    ensures MountStyled(d, text, layout, 5.0, Some(own), 0, highlightColor, clickableSpans, defaultColors).colorStateList != Some(own)
  {
  }

  /** The seven-argument overload forwarding its own translation and colour
      state list to the full mount. */
  function MountStyledForwarding(
    d: DrawableState,
    text: Text,
    layout: Layout,
    layoutTranslationY: real,
    colorStateList: Option<ColorStateList>,
    userColor: int,
    highlightColor: int,
    clickableSpans: Option<seq<Span>>,
    defaultColors: ColorStateList): (r: DrawableState)
    ensures r.layoutTranslationY == layoutTranslationY
    ensures userColor == 0 && colorStateList.Some? ==> r.colorStateList == colorStateList
    ensures userColor != 0 ==> !IsStateful(r)
    ensures r.text == Some(text) && r.highlightColor == highlightColor && r.clickableSpans == clickableSpans
  {
    MountAsWritten(d, text, layout, layoutTranslationY, colorStateList, userColor, highlightColor, clickableSpans,
                   None, None, -1, -1, 0.0, defaultColors)
  }

  /** unmount: drops the content, colours and listener. The selection, the
      long-click state and the bounds are left as they were. */
  function Unmount(d: DrawableState): (r: DrawableState)
    ensures r.text.None? && r.layout.None? && r.clickableSpans.None? && r.imageSpans.None?
    ensures !r.shouldHandleTouch && r.textOffsetListener.None?
    ensures GetTextItems(r) == []
    ensures !IsStateful(r) && r.userColor == 0 && r.highlightColor == 0 && r.layoutTranslationY == 0.0
    ensures r.selectionStart == d.selectionStart && r.selectionEnd == d.selectionEnd
    ensures r.longClickActivated == d.longClickActivated && r.longClickRunnable == d.longClickRunnable
    ensures r.bounds == d.bounds
    ensures Valid(d) ==> Valid(r)
  {
    d.(layout := None, layoutTranslationY := 0.0, text := None, clickableSpans := None,
       shouldHandleTouch := false, highlightColor := 0, textOffsetListener := None,
       colorStateList := None, userColor := 0, imageSpans := None)
  }

  // ---------------------------------------------------------------------
  // Layout and span queries
  // ---------------------------------------------------------------------

  function Min(a: real, b: real): real { if a <= b then a else b }
  function Max(a: real, b: real): real { if a <= b then b else a }

  /** getTextOffsetAt: -1 when x lies outside the horizontal extent of the
      line at y (whichever way the line runs), otherwise the layout's offset
      for x on that line. */
  function TextOffsetAt(layout: Layout, x: int, y: int): (r: int)
    ensures var line := layout.lineForVertical(y);
            var a := layout.primaryHorizontal(layout.lineStart(line));
            var b := layout.primaryHorizontal(layout.lineVisibleEnd(line));
            r == if x as real < Min(a, b) || x as real > Max(a, b) then -1
                 else layout.offsetForHorizontal(line, x as real)
  {
    var line := layout.lineForVertical(y);
    var start := layout.primaryHorizontal(layout.lineStart(line));
    var end := layout.primaryHorizontal(layout.lineVisibleEnd(line));
    var lo := if start > end then end else start;
    var hi := if start > end then start else end;
    if x as real < lo || x as real > hi then -1 else layout.offsetForHorizontal(line, x as real)
  }

  /** The offset lookup does not depend on which way the line runs: two
      layouts that agree on the line and on the offsets for x, and whose
      line start and visible end lie at swapped horizontals, give the same
      answer. */
  lemma TextOffsetAtDirectionFree(l1: Layout, l2: Layout, x: int, y: int)
    requires l1.lineForVertical(y) == l2.lineForVertical(y)
    requires var line := l1.lineForVertical(y);
             && l1.primaryHorizontal(l1.lineStart(line)) == l2.primaryHorizontal(l2.lineVisibleEnd(line))
             && l1.primaryHorizontal(l1.lineVisibleEnd(line)) == l2.primaryHorizontal(l2.lineStart(line))
             && l1.offsetForHorizontal(line, x as real) == l2.offsetForHorizontal(line, x as real)
    ensures TextOffsetAt(l1, x, y) == TextOffsetAt(l2, x, y)
  {
  }

  /** getClickableSpanInCoords: the first span at the offset under the
      point, if the point is on text. */
  function SpanInCoords(layout: Layout, text: Text, x: int, y: int): (r: Option<Span>)
    ensures r.Some? <==> TextOffsetAt(layout, x, y) >= 0 && |text.spansAt(TextOffsetAt(layout, x, y))| > 0
    ensures r.Some? ==> r.value == text.spansAt(TextOffsetAt(layout, x, y))[0]
  {
    var offset := TextOffsetAt(layout, x, y);
    if offset < 0 then None
    else
      var spans := text.spansAt(offset);
      if |spans| > 0 then Some(spans[0]) else None
  }

  /** The loop of getClickableSpanInProximityToClick from index k, with the
      close span found so far. */
  function ProximityFrom(layout: Layout, spans: seq<Span>, x: int, y: int, radius: real, k: nat, found: Option<Span>): Option<Span>
    requires k <= |spans|
    decreases |spans| - k
  {
    if k == |spans| then found
    else if !layout.isClickCloseToSpan(spans[k], x, y, radius) then ProximityFrom(layout, spans, x, y, radius, k + 1, found)
    else if found.Some? then None
    else ProximityFrom(layout, spans, x, y, radius, k + 1, Some(spans[k]))
  }

  /** getClickableSpanInProximityToClick. */
  function SpanInProximity(layout: Layout, spans: seq<Span>, x: int, y: int, radius: real): Option<Span>
  {
    ProximityFrom(layout, spans, x, y, radius, 0, None)
  }

  /** Index i is the only position whose span is close to the tap. */
  ghost predicate OnlyCloseAt(layout: Layout, spans: seq<Span>, x: int, y: int, radius: real, i: int)
  {
    && 0 <= i < |spans|
    && layout.isClickCloseToSpan(spans[i], x, y, radius)
    && forall j | 0 <= j < |spans| && j != i :: !layout.isClickCloseToSpan(spans[j], x, y, radius)
  }

  lemma {:induction false} ProximityFromSpec(
    layout: Layout, spans: seq<Span>, x: int, y: int, radius: real, k: nat, found: Option<Span>)
    requires k <= |spans|
    requires found.None? ==> forall j | 0 <= j < k :: !layout.isClickCloseToSpan(spans[j], x, y, radius)
    requires found.Some? ==>
               exists i | 0 <= i < k :: spans[i] == found.value && layout.isClickCloseToSpan(spans[i], x, y, radius)
                 && forall j | 0 <= j < k && j != i :: !layout.isClickCloseToSpan(spans[j], x, y, radius)
    ensures var r := ProximityFrom(layout, spans, x, y, radius, k, found);
            && (r.Some? <==> exists i :: OnlyCloseAt(layout, spans, x, y, radius, i))
            && (r.Some? ==> exists i :: OnlyCloseAt(layout, spans, x, y, radius, i) && spans[i] == r.value)
    decreases |spans| - k
  {
    var close := (s: Span) => layout.isClickCloseToSpan(s, x, y, radius);
    if k == |spans| {
      if found.Some? {
        var i :| 0 <= i < k && spans[i] == found.value && close(spans[i])
                 && forall j | 0 <= j < k && j != i :: !close(spans[j]);
        assert OnlyCloseAt(layout, spans, x, y, radius, i);
      }
    } else if !close(spans[k]) {
      if found.Some? {
        var i :| 0 <= i < k && spans[i] == found.value && close(spans[i])
                 && forall j | 0 <= j < k && j != i :: !close(spans[j]);
        assert forall j | 0 <= j < k + 1 && j != i :: !close(spans[j]);
      }
      ProximityFromSpec(layout, spans, x, y, radius, k + 1, found);
    } else if found.Some? {
      var i :| 0 <= i < k && spans[i] == found.value && close(spans[i])
               && forall j | 0 <= j < k && j != i :: !close(spans[j]);
    } else {
      assert forall j | 0 <= j < k + 1 && j != k :: !close(spans[j]);
      ProximityFromSpec(layout, spans, x, y, radius, k + 1, Some(spans[k]));
    }
  }

  /** The proximity lookup answers a span exactly when one position in the
      span array is close to the tap, and then answers that span; zero or
      several close positions give none. */
  lemma SpanInProximityUnique(layout: Layout, spans: seq<Span>, x: int, y: int, radius: real)
    ensures SpanInProximity(layout, spans, x, y, radius).Some?
            <==> exists i :: OnlyCloseAt(layout, spans, x, y, radius, i)
    ensures forall i | OnlyCloseAt(layout, spans, x, y, radius, i) ::
              SpanInProximity(layout, spans, x, y, radius) == Some(spans[i])
  {
    ProximityFromSpec(layout, spans, x, y, radius, 0, None);
    forall i | OnlyCloseAt(layout, spans, x, y, radius, i)
      ensures SpanInProximity(layout, spans, x, y, radius) == Some(spans[i])
    {
      var r := SpanInProximity(layout, spans, x, y, radius);
      var i' :| OnlyCloseAt(layout, spans, x, y, radius, i') && spans[i'] == r.value;
      assert i' == i;
    }
  }

  /** The span a touch at drawable coordinates (x, y) lands on: the span
      under the point, or, when there is none and an expanded touch radius
      is set, the one span close to it. */
  function SpanHit(layout: Layout, text: Text, spans: seq<Span>, expandedOffset: real, x: int, y: int): Option<Span>
  {
    var inCoords := SpanInCoords(layout, text, x, y);
    if inCoords.None? && expandedOffset > 0.0 then
      SpanInProximity(layout, spans, x, y, expandedOffset)
    else
      inCoords
  }

  /** SpanHit on the drawable's own layout, text and span array. */
  function HitSpan(d: DrawableState, x: int, y: int): Option<Span>
    requires d.layout.Some? && d.text.Some? && d.clickableSpans.Some?
  {
    SpanHit(d.layout.value, d.text.value, d.clickableSpans.value, d.clickableSpanExpandedOffset, x, y)
  }

  // ---------------------------------------------------------------------
  // Touch dispatch
  // ---------------------------------------------------------------------

  /** shouldHandleTouchForClickableSpan. */
  predicate ShouldHandleTouchForClickableSpan(d: DrawableState, e: MotionEvent)
  {
    var action := ActionMasked(e);
    || (d.shouldHandleTouch && Contains(d.bounds, e.x, e.y) && (action == ACTION_UP || action == ACTION_DOWN))
    || action == ACTION_CANCEL
  }

  /** shouldHandleTouchForLongClickableSpan; it reads the raw action. */
  predicate ShouldHandleTouchForLongClickableSpan(d: DrawableState, e: MotionEvent)
  {
    d.shouldHandleTouch && d.hasLongClickHandler && e.action != ACTION_DOWN
  }

  /** shouldHandleTextOffsetOnTouch. */
  predicate ShouldHandleTextOffsetOnTouch(d: DrawableState, e: MotionEvent)
  {
    d.textOffsetListener.Some? && ActionMasked(e) == ACTION_DOWN && Contains(d.bounds, e.x, e.y)
  }

  /** shouldHandleTouchEvent. */
  predicate ShouldHandleTouchEvent(d: DrawableState, e: MotionEvent)
  {
    || ShouldHandleTouchForClickableSpan(d, e)
    || ShouldHandleTouchForLongClickableSpan(d, e)
    || ShouldHandleTextOffsetOnTouch(d, e)
  }

  /** resetLongClick: cancel the pending callback (when a handler exists)
      and forget any activation. */
  function ResetLongClick(d: DrawableState): (r: DrawableState)
    ensures !r.longClickActivated
    ensures d.hasLongClickHandler ==> r.longClickRunnable.None?
    ensures !d.hasLongClickHandler ==> r.longClickRunnable == d.longClickRunnable
    ensures r == d.(longClickActivated := false, longClickRunnable := r.longClickRunnable)
  {
    d.(longClickRunnable := if d.hasLongClickHandler then None else d.longClickRunnable,
       longClickActivated := false)
  }

  /** registerForLongClick: a long-click callback for the span is pending. */
  function RegisterForLongClick(d: DrawableState, span: Span): DrawableState
  {
    d.(longClickRunnable := Some(span))
  }

  /** The pending long-click callback runs; `handled` is what the span's
      onLongClick returned, and becomes the activation flag. */
  function RunLongClick(d: DrawableState, handled: bool): (r: DrawableState)
    ensures d.longClickRunnable.Some? ==> r.longClickActivated == handled
    ensures d.longClickRunnable.None? ==> r == d
    ensures r == d.(longClickActivated := r.longClickActivated)
  {
    if d.longClickRunnable.Some? then d.(longClickActivated := handled) else d
  }
  /** A registered long click is the one that runs or is cancelled: running
      it sets activation to the span's answer, and a reset with a handler
      removes it. */
  lemma RegisteredLongClickLifecycle(d: DrawableState, span: Span, handled: bool)
    ensures RegisterForLongClick(d, span).longClickRunnable == Some(span)
    ensures RunLongClick(RegisterForLongClick(d, span), handled).longClickActivated == handled
    ensures d.hasLongClickHandler ==> ResetLongClick(RegisterForLongClick(d, span)).longClickRunnable.None?
    ensures !d.hasLongClickHandler ==> ResetLongClick(RegisterForLongClick(d, span)).longClickRunnable == Some(span)
  {
  }


  /** trackLongClickBoundaryOnMove: leaving the bounds, or moving onto
      anything but the pending span, cancels the long click. */
  function TrackLongClickBoundaryOnMove(d: DrawableState, e: MotionEvent): (r: DrawableState)
    requires d.layout.Some? && d.text.Some?
    ensures r == d || r == ResetLongClick(d)
  {
    if !Contains(d.bounds, e.x, e.y) then ResetLongClick(d)
    else
      var span := SpanInCoords(d.layout.value, d.text.value, e.x - d.bounds.left, e.y - d.bounds.top);
      if d.longClickRunnable != span then ResetLongClick(d) else d
  }

  /** handleTouchForSpans. Callers reach it only for a cancel or when
      clickable spans are being handled. */
  function HandleTouchForSpans(d: DrawableState, e: MotionEvent): (r: TouchResult)
    requires Touchable(d)
    requires ActionMasked(e) == ACTION_CANCEL || d.shouldHandleTouch
    // cancel
    ensures ActionMasked(e) == ACTION_CANCEL ==>
              && !r.consumed && r.effects == [] && !r.drawable.longClickActivated
              && (Alpha(d.highlightColor) != 0 ==> r.drawable.selectionStart == 0 && r.drawable.selectionEnd == 0)
    // an up always ends a long click
    ensures ActionMasked(e) == ACTION_UP ==> !r.drawable.longClickActivated
    // outside the bounds nothing is consumed
    ensures !Contains(d.bounds, e.x, e.y) ==> !r.consumed && r.effects == []
    // a consumed touch landed on a span
    ensures r.consumed ==>
              && ActionMasked(e) != ACTION_CANCEL && Contains(d.bounds, e.x, e.y)
              && HitSpan(d, e.x - d.bounds.left, e.y - d.bounds.top).Some?
    // a click fires only on an up that was not preceded by an activated long click
    ensures r.effects != [] ==>
              && ActionMasked(e) == ACTION_UP && !d.longClickActivated && r.consumed
              && r.effects == [SpanClicked(HitSpan(d, e.x - d.bounds.left, e.y - d.bounds.top).value)]
    // nothing but the selection and the long-click bookkeeping changes
    ensures r.drawable == d.(selectionStart := r.drawable.selectionStart, selectionEnd := r.drawable.selectionEnd,
                             selectionPathNeedsUpdate := r.drawable.selectionPathNeedsUpdate,
                             highlightPaintColor := r.drawable.highlightPaintColor,
                             longClickActivated := r.drawable.longClickActivated,
                             longClickRunnable := r.drawable.longClickRunnable)
    ensures Touchable(r.drawable)
  {
    var action := ActionMasked(e);
    if action == ACTION_CANCEL then
      TouchResult(ResetLongClick(ClearSelection(d)), false, [])
    else
      var tracked :=
        if action == ACTION_MOVE && !d.longClickActivated && d.longClickRunnable.Some? then
          TrackLongClickBoundaryOnMove(d, e)
        else d;
      var clickActivationAllowed := !tracked.longClickActivated;
      var reset := if action == ACTION_UP then ResetLongClick(tracked) else tracked;
      if !Contains(reset.bounds, e.x, e.y) then
        TouchResult(reset, false, [])
      else
        var x := e.x - reset.bounds.left;
        var y := e.y - reset.bounds.top;
        var clicked := HitSpan(reset, x, y);
        if clicked.None? then
          TouchResult(ClearSelection(reset), false, [])
        else if action == ACTION_UP then
          TouchResult(ClearSelection(reset), true, if clickActivationAllowed then [SpanClicked(clicked.value)] else [])
        else if action == ACTION_DOWN then
          var registered :=
            if clicked.value.LongClickableSpan? then RegisterForLongClick(reset, clicked.value) else reset;
          TouchResult(SetSelectionToSpan(registered, clicked.value), true, [])
        else
          TouchResult(reset, true, [])
  }

  /** Touch handling keeps the drawable invariant. */
  lemma HandleTouchKeepsValid(d: DrawableState, e: MotionEvent)
    requires Touchable(d)
    requires ActionMasked(e) == ACTION_CANCEL || d.shouldHandleTouch
    requires Valid(d)
    ensures Valid(HandleTouchForSpans(d, e).drawable)
  {
  }

  /** handleTextOffsetChange: the listener hears the offset under the
      touch, but only when it lies within [0, |text|]. */
  function HandleTextOffsetChange(d: DrawableState, e: MotionEvent): (r: seq<Effect>)
    requires d.layout.Some? && d.text.Some?
    ensures |r| <= 1
    ensures forall k | 0 <= k < |r| ::
              && r[k] == TextOffsetTouched(TextOffsetAt(d.layout.value, e.x - d.bounds.left, e.y - d.bounds.top))
              && 0 <= r[k].offset <= d.text.value.length
    ensures r == [] <==>
              var offset := TextOffsetAt(d.layout.value, e.x - d.bounds.left, e.y - d.bounds.top);
              offset < 0 || offset > d.text.value.length
  {
    var offset := TextOffsetAt(d.layout.value, e.x - d.bounds.left, e.y - d.bounds.top);
    if offset >= 0 && offset <= d.text.value.length then [TextOffsetTouched(offset)] else []
  }

  /** onTouchEvent: spans first; if they do not consume the touch, the
      text-offset listener hears it whenever shouldHandleTextOffsetOnTouch
      accepts it, but the touch is then never consumed. */
  function OnTouchEvent(d: DrawableState, e: MotionEvent): (r: TouchResult)
    requires Touchable(d)
    ensures r.consumed ==>
              (ShouldHandleTouchForClickableSpan(d, e) || ShouldHandleTouchForLongClickableSpan(d, e))
              && ActionMasked(e) != ACTION_CANCEL
    ensures forall k | 0 <= k < |r.effects| && r.effects[k].SpanClicked? ::
              r.consumed && ActionMasked(e) == ACTION_UP && !d.longClickActivated
    ensures forall k | 0 <= k < |r.effects| && r.effects[k].TextOffsetTouched? ::
              && !r.consumed && ShouldHandleTextOffsetOnTouch(d, e)
              && 0 <= r.effects[k].offset <= d.text.value.length
    ensures r.consumed ==> d.shouldHandleTouch && r == HandleTouchForSpans(d, e)
    ensures !ShouldHandleTouchEvent(d, e) ==> r == TouchResult(d, false, [])
    ensures Touchable(r.drawable)
    ensures Valid(d) ==> Valid(r.drawable)
  {
    var spansWanted := ShouldHandleTouchForClickableSpan(d, e) || ShouldHandleTouchForLongClickableSpan(d, e);
    var t := if spansWanted then HandleTouchForSpans(d, e) else TouchResult(d, false, []);
    assert Valid(d) ==> Valid(t.drawable) by {
      if spansWanted && Valid(d) {
        HandleTouchKeepsValid(d, e);
      }
    }
    if t.consumed then t
    else if ShouldHandleTextOffsetOnTouch(t.drawable, e) then
      TouchResult(t.drawable, false, HandleTextOffsetChange(t.drawable, e))
    else
      TouchResult(t.drawable, false, [])
  }

  /** A touch the spans leave unconsumed reaches the text-offset listener
      exactly when shouldHandleTextOffsetOnTouch accepts it: then it
      reports what handleTextOffsetChange reports, otherwise nothing. */
  lemma UnconsumedTouchReachesListener(d: DrawableState, e: MotionEvent)
    requires Touchable(d) && !OnTouchEvent(d, e).consumed
    ensures OnTouchEvent(d, e).effects
            == if ShouldHandleTextOffsetOnTouch(d, e) then HandleTextOffsetChange(d, e) else []
  {
    if ShouldHandleTouchForClickableSpan(d, e) || ShouldHandleTouchForLongClickableSpan(d, e) {
      var t := HandleTouchForSpans(d, e);
      assert t.drawable.bounds == d.bounds && t.drawable.layout == d.layout && t.drawable.text == d.text
             && t.drawable.textOffsetListener == d.textOffsetListener;
    }
  }

  // ---------------------------------------------------------------------
  // Properties across transitions
  // ---------------------------------------------------------------------

  /** After unmount only a cancel is of interest to the drawable. */
  lemma UnmountedHandlesOnlyCancel(d: DrawableState, e: MotionEvent)
    ensures ShouldHandleTouchEvent(Unmount(d), e) <==> ActionMasked(e) == ACTION_CANCEL
  {
  }

  /** A cancel is always of interest, whatever the state, and always
      clears the selection, forgets the long click and consumes nothing. */
  lemma CancelAlwaysHandled(d: DrawableState, e: MotionEvent)
    requires Touchable(d) && ActionMasked(e) == ACTION_CANCEL
    ensures ShouldHandleTouchEvent(d, e)
    ensures OnTouchEvent(d, e) == TouchResult(ResetLongClick(ClearSelection(d)), false, [])
  {
    assert !ShouldHandleTextOffsetOnTouch(ResetLongClick(ClearSelection(d)), e);
  }

  /** After a mount, a drawable handles span touches iff it was given a
      non-empty span array. */
  lemma MountedSpanHandling(
    d: DrawableState, text: Text, layout: Layout, userColor: int,
    clickableSpans: Option<seq<Span>>, defaultColors: ColorStateList, e: MotionEvent)
    requires ActionMasked(e) == ACTION_DOWN && Contains(d.bounds, e.x, e.y)
    ensures ShouldHandleTouchForClickableSpan(MountWithSpans(d, text, layout, userColor, clickableSpans, defaultColors), e)
            <==> clickableSpans.Some? && |clickableSpans.value| > 0
  {
  }

  /** An up after an activated long click fires no click. */
  lemma LongClickSuppressesClick(d: DrawableState, e: MotionEvent)
    requires Touchable(d) && d.longClickActivated && ActionMasked(e) == ACTION_UP
    ensures forall k | 0 <= k < |OnTouchEvent(d, e).effects| :: !OnTouchEvent(d, e).effects[k].SpanClicked?
  {
  }
  /** A move while a long click is pending and not yet activated: if it
      stays inside the bounds on the pending span, the long click stays
      pending; if it leaves the bounds or the span, it is cancelled. */
  lemma MoveTracksPendingLongClick(d: DrawableState, e: MotionEvent)
    requires Touchable(d) && d.shouldHandleTouch && d.hasLongClickHandler
    requires ActionMasked(e) == ACTION_MOVE && !d.longClickActivated && d.longClickRunnable.Some?
    ensures var r := OnTouchEvent(d, e).drawable;
            var stays := Contains(d.bounds, e.x, e.y)
                         && SpanInCoords(d.layout.value, d.text.value, e.x - d.bounds.left, e.y - d.bounds.top)
                            == d.longClickRunnable;
            && (stays ==> r.longClickRunnable == d.longClickRunnable)
            && (!stays ==> r.longClickRunnable.None? && !r.longClickActivated)
  {
    assert ShouldHandleTouchForLongClickableSpan(d, e);
    var t := HandleTouchForSpans(d, e);
    assert OnTouchEvent(d, e).drawable == t.drawable;
  }


  /** An up inside the bounds on a span, with no long click activated,
      fires exactly that span's click and is consumed. */
  lemma UpOnSpanClicks(d: DrawableState, e: MotionEvent, s: Span)
    requires Touchable(d) && d.shouldHandleTouch && !d.longClickActivated
    requires ActionMasked(e) == ACTION_UP && Contains(d.bounds, e.x, e.y)
    requires HitSpan(d, e.x - d.bounds.left, e.y - d.bounds.top) == Some(s)
    ensures OnTouchEvent(d, e).consumed
    ensures OnTouchEvent(d, e).effects == [SpanClicked(s)]
    ensures !OnTouchEvent(d, e).drawable.longClickActivated
    ensures Alpha(d.highlightColor) != 0 ==>
              OnTouchEvent(d, e).drawable.selectionStart == 0 && OnTouchEvent(d, e).drawable.selectionEnd == 0
  {
  }

  /** A down inside the bounds on a span is consumed and fires nothing; with
      a visible highlight it selects the span's range, and a long-clickable
      span gets its long click scheduled. */
  lemma DownOnSpanSelects(d: DrawableState, e: MotionEvent, s: Span)
    requires Touchable(d) && d.shouldHandleTouch
    requires ActionMasked(e) == ACTION_DOWN && Contains(d.bounds, e.x, e.y)
    requires HitSpan(d, e.x - d.bounds.left, e.y - d.bounds.top) == Some(s)
    requires s.ClickableSpan? || d.hasLongClickHandler
    ensures var r := OnTouchEvent(d, e);
            && r.consumed && r.effects == []
            && (Alpha(d.highlightColor) != 0 ==>
                  r.drawable.selectionStart == d.text.value.spanStart(s)
                  && r.drawable.selectionEnd == d.text.value.spanEnd(s))
            && (s.LongClickableSpan? ==> r.drawable.longClickRunnable == Some(s))
            && (s.ClickableSpan? ==> r.drawable.longClickRunnable == d.longClickRunnable)
  {
  }

  /** A touch inside the bounds that lands on no span, near or under it, is
      not consumed and fires nothing; with a visible highlight the selection
      is cleared to (0, 0), otherwise it is left as it was. */
  lemma MissClearsSelection(d: DrawableState, e: MotionEvent)
    requires Touchable(d) && d.shouldHandleTouch
    requires ActionMasked(e) != ACTION_CANCEL && Contains(d.bounds, e.x, e.y)
    requires HitSpan(d, e.x - d.bounds.left, e.y - d.bounds.top).None?
    ensures var r := HandleTouchForSpans(d, e);
            && !r.consumed && r.effects == []
            && (Alpha(d.highlightColor) != 0 ==> r.drawable.selectionStart == 0 && r.drawable.selectionEnd == 0)
            && (Alpha(d.highlightColor) == 0 ==>
                  r.drawable.selectionStart == d.selectionStart && r.drawable.selectionEnd == d.selectionEnd)
  {
  }

  /** Every touch inside the bounds that is not a cancel and lands on a
      span, near or under it, is consumed: a down, an up (whether or not a
      long click fired before it) and a move alike. */
  lemma HitInBoundsIsConsumed(d: DrawableState, e: MotionEvent)
    requires Touchable(d) && d.shouldHandleTouch
    requires ActionMasked(e) != ACTION_CANCEL && Contains(d.bounds, e.x, e.y)
    requires HitSpan(d, e.x - d.bounds.left, e.y - d.bounds.top).Some?
    ensures HandleTouchForSpans(d, e).consumed
  {
  }

  /** When a span predicate accepts a touch and the span handler consumes
      it, onTouchEvent returns the span handler's result unchanged, and the
      text-offset listener does not hear it. */
  lemma SpanConsumedTouchIsConsumed(d: DrawableState, e: MotionEvent)
    requires Touchable(d)
    requires ShouldHandleTouchForClickableSpan(d, e) || ShouldHandleTouchForLongClickableSpan(d, e)
    requires HandleTouchForSpans(d, e).consumed
    ensures OnTouchEvent(d, e) == HandleTouchForSpans(d, e)
  {
  }

  /** Pressing a long-clickable span and then lifting: if the long-click
      callback ran and handled the press, the lift fires no click;
      otherwise it fires the span's click. */
  lemma LongPressThenLift(d: DrawableState, down: MotionEvent, up: MotionEvent, s: Span, handled: bool)
    requires Touchable(d) && d.shouldHandleTouch && !d.longClickActivated
    requires ActionMasked(down) == ACTION_DOWN && ActionMasked(up) == ACTION_UP
    requires down.x == up.x && down.y == up.y && Contains(d.bounds, down.x, down.y)
    requires d.hasLongClickHandler && s.LongClickableSpan?
    requires HitSpan(d, down.x - d.bounds.left, down.y - d.bounds.top) == Some(s)
    ensures var pressed := OnTouchEvent(d, down);
            && pressed.consumed && pressed.effects == []
            && pressed.drawable.longClickRunnable == Some(s)
            && OnTouchEvent(RunLongClick(pressed.drawable, handled), up).effects
               == (if handled then [] else [SpanClicked(s)])
  {
    var pressed := OnTouchEvent(d, down);
    assert pressed == HandleTouchForSpans(d, down);
    var registered := RegisterForLongClick(d, s);
    assert pressed.drawable == SetSelectionToSpan(registered, s);
    var fired := RunLongClick(pressed.drawable, handled);
    assert fired.longClickActivated == handled;
    assert HitSpan(fired, up.x - fired.bounds.left, up.y - fired.bounds.top) == Some(s);
    if handled {
      LongClickSuppressesClick(fired, up);
    } else {
      UpOnSpanClicks(fired, up, s);
    }
  }
}

=== FILE: wrappers.dfy ===
/** Nullable references of the Java source, as an explicit Option. */
module Wrappers {

  /** `None` stands for a Java `null`, `Some(v)` for a non-null reference to `v`. */
  datatype Option<+T> = None | Some(value: T)
}
